=== FILE: README.md ===
# AI productivity analyzer: a Dafny model of its analysis logic

`ai_productivity_analyzer.py` compares a git repository's commit activity
in two windows of equal length around an "AI adoption date". It shells out
to `git log`, parses the text it gets back and prints a report. The
report has these parts:

- commit counts and daily rates;
- the percentage change and the multiplier;
- lines inserted and deleted;
- a keyword-based complexity split of the commit messages;
- the five busiest days;
- the most-changed files;
- the repository name.

This project models every part of that pipeline that is pure logic:

| module | models |
|---|---|
| `Window` | the four window boundaries, with dates as day ordinals, and the `OverflowError` when one leaves the calendar |
| `GitOutput` | what `run_git_command` returns for a command outcome, and `get_commit_count` |
| `CommitLog` | `get_commit_details`: commits per date in first-seen order, and the stripped subjects |
| `LineStats` | `get_lines_changed`: the first `(\d+) insertion` / `(\d+) deletion` match of each line |
| `FileChanges` | `get_file_changes`: the first ten `<count> <name>` lines, with the failure `int()` raises |
| `Complexity` | `analyze_commit_complexity`: the first keyword tier a message mentions, medium by default |
| `Rates` | daily rates, percentage change, multiplier and tier shares, in exact real arithmetic |
| `Ranking` | the stable `sorted(..., reverse=True)[:5]` of the busiest days |
| `RepoInfo` | `get_repo_info` as written, and as evidently intended |
| `Report` | how the report combines these results |

Supporting modules:

- `Base`: `Option`, `Result` and the three exceptions the logic can raise.
- `Text`: the Python string operations used.
- `Numbers`: `str()` and `int()` on integers.
- `Assoc`: an insertion-ordered `dict` as a list of pairs.

Running a command is not modelled. Its result is an input: the `Outcome`
datatype, either an exit with standard output or a `CalledProcessError`.
Every function therefore takes git's text and computes what the Python code
computes from it. The parsers `get_commit_details`, `get_lines_changed` and
`get_file_changes` receive what `run_git_command` returned, which is already
stripped. `Report.CommitDetailsOf`, `Report.LinesChangedOf` and
`Report.FileChangesOf` apply `GitOutput.Captured` to an `Outcome` first, and
the `Report` lemmas start from an `Outcome`. Python exceptions become `Err` values:

- `ValueError` from `int()` becomes `NotAnInteger`;
- `ZeroDivisionError` becomes `DivisionByZero`;
- `OverflowError` from the window arithmetic becomes `Overflow`.

Where the code and its documentation differ, the model follows the code:

- A failed git command gives back the empty string, which counts as zero
  commits. No error is shown beyond the message it prints.
- `get_file_changes` does not skip a malformed line. When the first token of
  a line with two or more tokens is not an integer, `int()` raises and the
  whole call fails. `FileChanges.Collect` models that as an `Err` carrying
  the first offending token.
- The complexity percentages divide the tier counts by the commit count from
  `git log --oneline | wc -l`. They do not divide by the number of messages
  that were classified. The two come from separate git invocations, so the
  three shares add up to 100 only when the counts agree, which is the
  hypothesis of `Report.ComplexitySharesSum`. With no commits the divisor is
  `max(commits, 1)`, i.e. 1.
- The guard `'insertion' in line or 'deletion' in line` changes nothing,
  because a regex match implies the word occurs (`LineStats.GuardIsRedundant`).

## Model

In `get_commit_details` a *record line* is an output line that contains the
separator `|` of git's `%cd|%s` format.

| member | source | states |
|---|---|---|
| Window.MakePeriods | ai_productivity_analyzer.py:29-32 | the constructor succeeds exactly when `adoption - days`, `adoption - 1` and `adoption + days` are all dates between 0001-01-01 and 9999-12-31, and otherwise raises `OverflowError`; on success the boundaries are those three and `adoption`, so the after range starts one past the end of the before range and no ordinal lies in both closed ranges; with `days >= 1` the closed before range spans `days` ordinals; with `days >= 0` the closed after range spans `days + 1` and together they cover exactly the ordinals from the first boundary to the last |
| Window.ReachesBeforeYearOne | ai_productivity_analyzer.py:29 | a window at least as long as the adoption ordinal reaches before 0001-01-01, and the constructor raises `OverflowError` |
| Window.WindowFits | ai_productivity_analyzer.py:29-32 | a window of `days >= 0` succeeds when the adoption date lies more than `days` days after 0001-01-01 and at least `days` days before 9999-12-31 |
| Window.DatesBetween | ai_productivity_analyzer.py:29-32 | the closed range between two boundary ordinals: exactly the ordinals from start to end, in order, and none when end precedes start |
| GitOutput.Captured | ai_productivity_analyzer.py:34-42 | a successful command yields its standard output with only whitespace cut away at either end, and nothing but whitespace cut; a failed one yields the empty string |
| GitOutput.SilentCapturesNothing | ai_productivity_analyzer.py:34-42 | a failed command, or a successful one whose output is only whitespace, yields the empty string |
| GitOutput.CommitCount | ai_productivity_analyzer.py:44-48 | `get_commit_count` fails exactly on non-empty captured text that `int()` rejects, and reports that text; empty captured text counts zero |
| GitOutput.SilentCountsZero | ai_productivity_analyzer.py:39-42 | a failed command, or output that is only whitespace, counts zero commits |
| GitOutput.CapturesNumber | ai_productivity_analyzer.py:38 | stripping the whitespace around a printed number leaves exactly its decimal form |
| GitOutput.ReadsLineCount | ai_productivity_analyzer.py:46-48 | the blank-padded, newline-ended count that `wc -l` prints is read back as that count |
| Numbers.NatToStringValue | ai_productivity_analyzer.py:48 | the decimal form of a natural number reads back as that number |
| Numbers.ReadSignedOfString | ai_productivity_analyzer.py:48 | reading a signed literal inverts `str()`, and `str()` has no surrounding whitespace |
| Numbers.ParseIntPadded | ai_productivity_analyzer.py:48 | `int()` of a number printed with whitespace on either side gives back the number |
| Numbers.ParseIntOfString | ai_productivity_analyzer.py:97 | `int(str(n)) == n` for every integer |
| Numbers.ParseIntRejects | ai_productivity_analyzer.py:97 | `int()` fails when, after stripping, a character past the optional sign is not a digit |
| Numbers.ParseInt | ai_productivity_analyzer.py:48 | a failure of `int()` carries the text it was given |
| Text.Strip | ai_productivity_analyzer.py:38 | `strip()` yields a contiguous part of its input with only whitespace cut away on either side, and neither end of the result is whitespace |
| Text.StripPadded | ai_productivity_analyzer.py:62 | `strip()` removes exactly the whitespace padding around text whose ends are not whitespace |
| Text.JoinSplit | ai_productivity_analyzer.py:58 | joining the pieces of `split(sep)` with `sep` gives back the text |
| Text.SplitJoin | ai_productivity_analyzer.py:58 | splitting a join of separator-free pieces gives back the pieces |
| Text.SplitAtFirst | ai_productivity_analyzer.py:60 | `split(sep, 1)` on a line containing `sep` gives a separator-free head and a tail that rebuild the line around the first `sep` |
| Text.SplitAtFirstUnique | ai_productivity_analyzer.py:60 | any decomposition with a separator-free head is the one `split(sep, 1)` returns |
| Text.WordsJoinSpaces | ai_productivity_analyzer.py:95-98 | `' '.join(ws).split()` is `ws` for non-empty whitespace-free words |
| Text.WordsStrip | ai_productivity_analyzer.py:95 | `s.strip().split()` equals `s.split()` |
| Text.Lower | ai_productivity_analyzer.py:114 | `lower()` keeps the length and maps each character to its lower-case form |
| Text.ContainsIff | ai_productivity_analyzer.py:118 | `sub in s` holds exactly when `sub` occurs at some index of `s` |
| CommitLog.GetCommitDetails | ai_productivity_analyzer.py:50-64 | each date is stored once, in the order of its first record line, with the number of record lines carrying it (0 for any other date); there is one message per record line, in log order, and it is that line's stripped subject |
| CommitLog.ParseLinesMeaning | ai_productivity_analyzer.py:55-62 | the loop over any list of lines stores the first-seen dates with their record-line counts and one stripped subject per record line |
| CommitLog.EmptyLog | ai_productivity_analyzer.py:53-64 | empty output gives no dates and no messages |
| CommitLog.AddRecord | ai_productivity_analyzer.py:59-62 | a record line splits at its first separator: the text before it is the date, which gains one commit, and the stripped rest, later separators included, is appended as the message |
| CommitLog.MessagesAreSubjects | ai_productivity_analyzer.py:58-62 | there is one message per record line, in log order, and each is that line's stripped subject |
| CommitLog.CountsAreRecordCounts | ai_productivity_analyzer.py:58-61 | the count stored for a date is the number of record lines carrying that date, and 0 for a date with none |
| CommitLog.AddLineCount | ai_productivity_analyzer.py:59-61 | a record line raises the count of its own date by one and leaves every other date's count alone; any other line changes nothing |
| CommitLog.AddLineKeys | ai_productivity_analyzer.py:61 | one line leaves the date order alone, or appends its date when that date is new |
| CommitLog.DatesFirstSeenOrder | ai_productivity_analyzer.py:55-61 | dates are stored in the order of their first record line, the order `defaultdict` iteration observes |
| CommitLog.DatesDistinct | ai_productivity_analyzer.py:55-61 | each date is stored once |
| CommitLog.CountsSumToMessages | ai_productivity_analyzer.py:58-62 | the per-date counts add up to the number of messages |
| CommitLog.CountsPositive | ai_productivity_analyzer.py:61 | every stored count is at least one |
| CommitLog.StoredPair | ai_productivity_analyzer.py:55-64 | each stored (date, count) pair is a date of the log with its number of record lines, at least one |
| Assoc.PutFind | ai_productivity_analyzer.py:99 | after `d[k] = v`, looking up `k` gives `v` |
| Assoc.PutOthers | ai_productivity_analyzer.py:99 | `d[k] = v` leaves the lookup of every other key unchanged |
| Assoc.PutKeys | ai_productivity_analyzer.py:99 | `d[k] = v` keeps the key order, and appends `k` only when it is new |
| Assoc.PutDistinct | ai_productivity_analyzer.py:99 | `d[k] = v` keeps keys unique |
| Assoc.FindKeys | ai_productivity_analyzer.py:61 | a lookup fails exactly for the keys that are not stored |
| Assoc.FindStored | ai_productivity_analyzer.py:61 | in a list with unique keys, a stored pair is what lookup finds |
| Assoc.IncrementCounts | ai_productivity_analyzer.py:61 | `d[k] += 1` on a `defaultdict(int)` raises `k`'s count, 0 when absent, by one, and the total by one |
| Assoc.IncrementOthers | ai_productivity_analyzer.py:61 | `d[k] += 1` leaves every other count alone |
| Assoc.IncrementPositive | ai_productivity_analyzer.py:61 | counting keeps every stored count positive |
| Assoc.FirstSeenMembers | ai_productivity_analyzer.py:55-61 | the first-seen list holds exactly the elements of its input |
| LineStats.LineContribution | ai_productivity_analyzer.py:75-83 | a line adds the number that starts the leftmost `(\d+) insertion` match, whole, to the insertions, and 0 when the regex never matches; the same for deletions |
| LineStats.CountIsLeftmost | ai_productivity_analyzer.py:77-83 | the first `findall` result, as an integer, is the number at the leftmost match, 0 without a match, and there is no match when the word does not occur |
| LineStats.GetLinesChanged | ai_productivity_analyzer.py:66-85 | the totals are the sums of the per-line contributions over the lines that mention either word; output with no newline contributes as one line |
| LineStats.SingleLineTotals | ai_productivity_analyzer.py:74-85 | output with no newline is one line, and the totals are its contribution |
| LineStats.EmptyStat | ai_productivity_analyzer.py:69-85 | empty output gives zero insertions and zero deletions |
| LineStats.DigitRunEnd | ai_productivity_analyzer.py:77 | the greedy `\d+` starting at an index ends at the first non-digit, or at the end of the line |
| LineStats.MatchAtIff | ai_productivity_analyzer.py:77 | the regex `(\d+) word` matches at an index exactly when a non-empty digit run from it is followed by a space and the word |
| LineStats.FirstMatch | ai_productivity_analyzer.py:77-81 | the first `findall` match is the leftmost index where the regex matches; none matches before it, and none at all when the result is `None` |
| LineStats.FirstMatchWholeNumber | ai_productivity_analyzer.py:77-81 | the first match starts a digit run, so the whole number before the word is read and not a suffix of it |
| LineStats.MatchMentionsWord | ai_productivity_analyzer.py:75-78 | a regex match implies the word occurs in the line |
| LineStats.GuardIsRedundant | ai_productivity_analyzer.py:75-83 | each line contributes its first insertion and deletion numbers (0 when absent) whether or not the `in` guard is there |
| LineStats.TotalsAppend | ai_productivity_analyzer.py:74-85 | the totals over consecutive chunks of output add up |
| LineStats.OnlyMentioningLinesCount | ai_productivity_analyzer.py:74-75 | dropping every line that mentions neither word leaves both totals unchanged |
| LineStats.CountAfter | ai_productivity_analyzer.py:77-81 | when the first match is a number `n` followed by a space and the word, the count read is `n` |
| LineStats.InsertionsOfSummary | ai_productivity_analyzer.py:77-81 | in the all-plural `--stat` summary line with all three parts the insertion count is read back, not the file count |
| LineStats.DeletionsOfSummary | ai_productivity_analyzer.py:78-83 | in the all-plural `--stat` summary line with all three parts the deletion count is read back, not the file or insertion count |
| LineStats.ReadsStatSummary | ai_productivity_analyzer.py:74-83 | the all-plural summary line ` F files changed, I insertions(+), D deletions(-)` contributes exactly `(I, D)` for all counts |
| FileChanges.ReadWords | ai_productivity_analyzer.py:96-99 | fewer than two tokens are ignored; otherwise the line fails exactly when its first token is not an integer, with that token reported, and else counts that integer under the other tokens joined by single spaces |
| FileChanges.ReadLine | ai_productivity_analyzer.py:94-95 | the blank-line test and `strip()` change nothing: a line reads as its whitespace-separated tokens |
| FileChanges.FirstLines | ai_productivity_analyzer.py:93 | `[:10]` keeps the first ten lines of the split output, or all of them when there are fewer |
| FileChanges.GetFileChanges | ai_productivity_analyzer.py:87-101 | only the first ten lines are read; the call fails exactly when one of them has a non-integer count, with the error of the first such line; otherwise at most ten files are reported, each once, in the order of their first counted line, each with the count of its last one |
| FileChanges.ParseCountsMeaning | ai_productivity_analyzer.py:92-99 | the loop over any lines fails exactly at the first line with a non-integer count; otherwise the names are distinct, no more than the lines, first-seen ordered, and carry their last counts |
| FileChanges.EmptyListing | ai_productivity_analyzer.py:90-101 | empty output reports no files |
| FileChanges.ReadsUniqLine | ai_productivity_analyzer.py:95-99 | a `uniq -c` line, a padded count then a name of single-space-separated words, reads back as that name and count |
| FileChanges.CollectSucceeds | ai_productivity_analyzer.py:93-101 | the loop succeeds exactly when every line read succeeds |
| FileChanges.CollectFirstError | ai_productivity_analyzer.py:97 | a failed loop reports the error of the first failing line, and every earlier line succeeded |
| FileChanges.ParseCountsSucceeds | ai_productivity_analyzer.py:93-101 | parsing the lines succeeds exactly when every line's count, if it has one, is an integer |
| FileChanges.ParseCountsFirstError | ai_productivity_analyzer.py:97 | a failure is the `int()` error of the first line whose count is not an integer |
| FileChanges.CollectOrder | ai_productivity_analyzer.py:92-99 | file names appear in the order of their first counted line |
| FileChanges.CollectFind | ai_productivity_analyzer.py:99 | the count stored for a name is the one on the last line naming it |
| FileChanges.ApplyFind | ai_productivity_analyzer.py:96-99 | a counted line sets its own name's count and leaves every other lookup unchanged |
| FileChanges.CollectDistinct | ai_productivity_analyzer.py:92-99 | each name is stored once, and there are no more entries than lines read |
| FileChanges.LaterLinesIgnored | ai_productivity_analyzer.py:93 | lines after the tenth, malformed or not, never change the result |
| Complexity.Classify | ai_productivity_analyzer.py:113-124 | the table order decides: high exactly when a high keyword occurs; low exactly when a low keyword occurs and neither a high nor a medium one does; medium otherwise, including when nothing matches |
| Complexity.TableOrder | ai_productivity_analyzer.py:117-121 | the loop over the keyword table, stopping at the first tier with a match, picks high, then medium, then low, and none when nothing matches |
| Complexity.Analyze | ai_productivity_analyzer.py:103-126 | every message lands in exactly one tier: the counts add up to the number of messages, and each is the number of messages classified there |
| Complexity.Classified | ai_productivity_analyzer.py:113-124 | there is one tier per message, in order, and it is that message's classification |
| Complexity.CountTiersCounts | ai_productivity_analyzer.py:111-124 | each tier's count is the number of occurrences of that tier, and the counts add up to the number of messages |
| Complexity.AnalyzeAppend | ai_productivity_analyzer.py:113-124 | counting is additive over consecutive runs of messages |
| Complexity.RefactorPrefixIsHigh | ai_productivity_analyzer.py:117-121 | every message whose first word lower-cases to "refactor" is high, whatever low or medium keywords follow |
| Complexity.RefactorFixTypoIsHigh | ai_productivity_analyzer.py:117-121 | "Refactor: fix typo" is high: the first matching tier wins over a later one |
| Complexity.TypoIsLow | ai_productivity_analyzer.py:108-121 | "Typo" is low: matching is case-insensitive |
| Complexity.NoKeywordIsMedium | ai_productivity_analyzer.py:123-124 | every message whose lower-cased text mentions no keyword of any tier defaults to medium |
| Complexity.WipIsMedium | ai_productivity_analyzer.py:123-124 | example: "wip" mentions no keyword and is classified medium |
| Complexity.MentionsNone | ai_productivity_analyzer.py:118 | no keyword occurs when each is longer than the text or starts with a character the text lacks |
| Rates.DailyRate | ai_productivity_analyzer.py:141-142 | the rate fails exactly for a zero-length window; otherwise it times the window length gives back the commit count |
| Rates.Compare | ai_productivity_analyzer.py:141-150 | the core results fail exactly for a zero-length window, with `ZeroDivisionError`; otherwise both rates times the window length give back the commit counts |
| Rates.IncreaseIsMultiplierMinusOne | ai_productivity_analyzer.py:144-150 | the multiplier is shown exactly when the before rate is positive, and then the percentage change is the multiplier less one, in percent; otherwise the change is 0 |
| Rates.MultiplierIsCommitRatio | ai_productivity_analyzer.py:150 | for a positive window length the multiplier exists exactly when some commit preceded adoption, and it equals the ratio of the commit counts |
| Rates.IncreaseSign | ai_productivity_analyzer.py:144 | with commits before adoption, the change is positive exactly when there are more commits after, and zero exactly when the counts are equal |
| Rates.TenToTwentyFive | ai_productivity_analyzer.py:141-150 | 10 commits before and 25 after over 30-day windows give +150% and a 2.5x multiplier |
| Rates.Share | ai_productivity_analyzer.py:175-177 | a tier's share times `max(commits, 1)` is the tier count times 100, so the divisor is never 0 |
| Rates.SharesSumToHundred | ai_productivity_analyzer.py:175-177 | when the tier counts add up to a positive commit count, the three shares add up to 100 |
| Ranking.SortByCount | ai_productivity_analyzer.py:187 | the sort keeps every entry, orders by descending count, and keeps the input order among equal counts, which pins down Python's stable `sorted(..., reverse=True)` |
| Ranking.TopDays | ai_productivity_analyzer.py:187 | at most five entries are listed, as many as there are when fewer, in descending order; they are the head of the sorted list, each one of the ranked entries, and none left out has a higher count than a listed one |
| Ranking.SplitSorted | ai_productivity_analyzer.py:187 | cutting a descending list at any point leaves a descending head of input entries whose counts are at least those of the tail, and the two parts together hold every input entry |
| Ranking.TopTies | ai_productivity_analyzer.py:187 | the listed entries with a given count are a prefix of the input entries with that count |
| Ranking.InsertSorted | ai_productivity_analyzer.py:187 | inserting into a list ordered by descending count keeps it ordered |
| Ranking.InsertStable | ai_productivity_analyzer.py:187 | the inserted entry goes after every entry that has its count |
| Ranking.TiesKeepOrder | ai_productivity_analyzer.py:187 | example: of two days with three commits after one with one, the two come first and keep their first-seen order; the general statement is `Report.MostActiveDaysTies` |
| Report.CommitDetailsOf | ai_productivity_analyzer.py:53-64 | a failed command or output that is only whitespace gives no dates and no messages |
| Report.LinesChangedOf | ai_productivity_analyzer.py:69-85 | a failed command or output that is only whitespace gives zero insertions and deletions |
| Report.FileChangesOf | ai_productivity_analyzer.py:90-101 | a failed command or output that is only whitespace reports no files and no error |
| Report.CoreResults | ai_productivity_analyzer.py:137-150 | the core results succeed exactly when both counts parse and the window is non-empty; failures come in evaluation order: a bad before count, then a bad after count, then `ZeroDivisionError`; success is the comparison of the two counts |
| Report.CoreResultsOfLineCounts | ai_productivity_analyzer.py:137-150 | with counts printed by `wc -l`, the multiplier exists exactly when the before window had a commit, and it equals the ratio of the counts |
| Report.MostActiveDays | ai_productivity_analyzer.py:187-189 | at most five days are listed, busiest first |
| Report.MostActiveDaysCounts | ai_productivity_analyzer.py:187-189 | every listed date occurs in the log and comes with its number of commit lines, at least one |
| Report.MostActiveDaysTies | ai_productivity_analyzer.py:187-189 | the listed days with a given count are the first ones, in first-seen order, of all days with that count |
| Report.ComplexitySharesSum | ai_productivity_analyzer.py:170-177 | the percentages add up to 100 when the `wc -l` count equals the number of parsed messages |
| RepoInfo.LastSegment | ai_productivity_analyzer.py:235 | `url.split("/")[-1]` contains no `/` |
| RepoInfo.SegmentAfterSlash | ai_productivity_analyzer.py:235 | the last segment of `prefix/segment` is `segment` when it holds no `/` |
| RepoInfo.RemoveAll | ai_productivity_analyzer.py:235 | `replace(pat, "")` never lengthens the text |
| RepoInfo.RemoveAllNoOccurrence | ai_productivity_analyzer.py:235 | `replace(pat, "")` returns text without an occurrence of `pat` unchanged |
| RepoInfo.RemoveAllLeftmost | ai_productivity_analyzer.py:235 | `replace(pat, "")` keeps the text before the leftmost occurrence of `pat`, drops that occurrence and continues right after it |
| RepoInfo.RemoveAllAbsent | ai_productivity_analyzer.py:235 | `replace(pat, "")` never introduces a character |
| RepoInfo.RemoveAllPlain | ai_productivity_analyzer.py:235 | `replace(pat, "")` copies a leading part that lacks the first character of `pat` unchanged, and continues on the rest |
| RepoInfo.RemoveAllFirst | ai_productivity_analyzer.py:235 | `replace(pat, "")` drops the first occurrence and resumes scanning right after it |
| RepoInfo.RemoveAllBeforeSuffix | ai_productivity_analyzer.py:235 | a name that contains no `.git`, followed by `.git`, loses exactly that suffix |
| RepoInfo.RemoveAllTwice | ai_productivity_analyzer.py:235 | in `<a>.git<b>.<c>.git`, with `a`, `b` and `c` free of dots, both `.git` are dropped, not only the trailing one |
| RepoInfo.RepoNameAsWritten | ai_productivity_analyzer.py:233-237 | the name the code reports for a GitHub remote holds no `/` |
| RepoInfo.AsWrittenAgrees | ai_productivity_analyzer.py:233-236 | for a name without `.git` inside it, the code reports the name without the suffix |
| RepoInfo.PagesRepoMangled | ai_productivity_analyzer.py:235 | for a Pages remote `<user>.github.io.git` the code reports `<user>hub.io`, while the intended reading gives `<user>.github.io` |
| RepoInfo.RepoName | ai_productivity_analyzer.py:233-237 | the intended name of a GitHub remote holds no `/` and is a prefix of the last path segment |
| RepoInfo.ReadsRepoName | ai_productivity_analyzer.py:233-236 | a GitHub remote `<prefix>/<name>.git`, or `<prefix>/<name>`, is reported as `name` |
| RepoInfo.NoGitHubRemote | ai_productivity_analyzer.py:232-237 | for the code as written and for the intended reading alike, a remote that does not mention GitHub, including the empty text of a failed `git config`, is reported as "Local repository" |

## Left out

- Running commands (`subprocess.run`, lines 37 and 232) is an input, the `Outcome` datatype. What git selects for `--since`/`--until` is outside the model, and so are the `sort | uniq -c | sort -nr` and `wc -l` pipelines: their output is the input.
- Summary lines with singular words (`1 file changed, 1 insertion(+)`) or a missing part are not among the layouts `LineStats.ReadsStatSummary` covers; the general reading is `LineStats.LineContribution` with `LineStats.FirstMatch`.
- Date parsing and formatting (`strptime`, `strftime`): dates are day ordinals in `Window`, and date keys in `CommitLog` are kept as the text git printed.
- Printing: the report text, the `:.1f`, `:+.1f` and `:,` formats, the emoji, and the error messages of lines 40-41. Rates are exact reals, not rounded floats.
- The `locals()` test of lines 215-216 always holds under `verbose`, because the names are bound at lines 154-155; the "Complex feature commits" line repeats the high counts of `Complexity.Analyze`.
- The top-five file listing of lines 202 and 206 only prints a prefix of `FileChanges.GetFileChanges`.
- The bare `except` of line 238 catches nothing the modelled logic can raise: `run_git_command` already turns a failure into the empty string.
- Command-line parsing (lines 241-260) and the constructor's storage of `tool_name`.
- Report.CommitDetailsOf: the contract states the silent case only; otherwise the result is `CommitLog.GetCommitDetails` of the captured text, whose contract states its meaning.
- Report.LinesChangedOf: likewise, otherwise `LineStats.GetLinesChanged` of the captured text.
- Report.FileChangesOf: likewise, otherwise `FileChanges.GetFileChanges` of the captured text.
- Text.Lower: covers the letters A-Z only. Python's `lower()` also maps other Unicode letters, but none of the keywords contain them.
- LineStats.DigitRunEnd: `\d` is taken as ASCII 0-9. Python's `re` also matches other Unicode decimal digits; git prints ASCII counts.
- LineStats.FirstMatch: inherits the ASCII reading of `\d` from `LineStats.DigitRunEnd`.
- Numbers.ParseInt: accepts ASCII digits with an optional sign and surrounding whitespace. Python's `int()` also takes other Unicode digits and `_` separators, which `wc -l` and `uniq -c` never print.
- Numbers.ParseIntRejects: for the same reason, a text with non-ASCII digits or `_` separators is rejected here though Python's `int()` may accept it.

## Findings

| source | as written | input that shows it | evidently intended | confidence | as-written member | corrected member |
|---|---|---|---|---|---|---|
| ai_productivity_analyzer.py:235 | `replace(".git", "")` removes every `.git` in the last path segment | remote `https://github.com/alice/alice.github.io.git` is reported as `alicehub.io` | remove only a trailing `.git` suffix, giving `alice.github.io` | not executed | RepoInfo.PagesRepoMangled | RepoInfo.ReadsRepoName |

=== FILE: assoc.dfy ===
/** Python's insertion-ordered `dict`, as a list of (key, value) pairs.
    The analyzer builds `commits_by_date` and `file_changes` this way, and
    their iteration order is observable: it fixes the tie order of the
    most-active-days ranking and the order of the file list. */
module Assoc {
  import opened Base

  /** Keys are texts (dates, file names) and values counts. */
  type Assoc = seq<(string, int)>

  function Keys(m: Assoc): (ks: seq<string>)
    ensures |ks| == |m|
    ensures forall i :: 0 <= i < |m| ==> ks[i] == m[i].0
  {
    if |m| == 0 then [] else [m[0].0] + Keys(m[1..])
  }

  lemma KeysSnoc(m: Assoc, kv: (string, int))
    ensures Keys(m + [kv]) == Keys(m) + [kv.0]
  {
  }

  /** No key occurs twice: the shape every Python dict has. */
  predicate DistinctKeys(m: Assoc) {
    |m| == 0 || (m[0].0 !in Keys(m[1..]) && DistinctKeys(m[1..]))
  }

  /** `d.get(k)`. */
  function Find(m: Assoc, k: string): Option<int> {
    if |m| == 0 then None
    else if m[0].0 == k then Some(m[0].1)
    else Find(m[1..], k)
  }

  /** Lookup fails exactly for the keys that are not stored. */
  lemma {:induction false} FindKeys(m: Assoc, k: string)
    ensures Find(m, k).None? <==> k !in Keys(m)
  {
    if |m| > 0 && m[0].0 != k {
      FindKeys(m[1..], k);
      assert Keys(m) == [m[0].0] + Keys(m[1..]);
    }
  }

  /** What lookup finds is a stored pair. */
  lemma {:induction false} FindIn(m: Assoc, k: string)
    ensures Find(m, k).Some? ==> (k, Find(m, k).value) in m
  {
    if |m| > 0 && m[0].0 != k {
      FindIn(m[1..], k);
    }
  }

  /** In a dict-shaped list, a stored pair is what lookup finds. */
  lemma {:induction false} FindStored(m: Assoc, k: string, v: int)
    requires DistinctKeys(m) && (k, v) in m
    ensures Find(m, k) == Some(v)
  {
    if m[0] != (k, v) {
      var i :| 0 <= i < |m| && m[i] == (k, v);
      assert m[1..][i - 1] == (k, v);
      assert Keys(m[1..])[i - 1] == k;
      FindStored(m[1..], k, v);
    }
  }

  /** `d.get(k, default)`. */
  function FindOr(m: Assoc, k: string, default: int): int {
    var r := Find(m, k);
    if r.Some? then r.value else default
  }

  /** `d[k] = v`: an existing key keeps its position and takes the new
      value; a new key goes to the end. */
  function Put(m: Assoc, k: string, v: int): Assoc {
    if |m| == 0 then [(k, v)]
    else if m[0].0 == k then [(k, v)] + m[1..]
    else [m[0]] + Put(m[1..], k, v)
  }

  /** After `d[k] = v`, `d.get(k)` is `v`. */
  lemma {:induction false} PutFind(m: Assoc, k: string, v: int)
    ensures Find(Put(m, k, v), k) == Some(v)
  {
    if |m| > 0 && m[0].0 != k {
      PutFind(m[1..], k, v);
    }
  }

  /** `d[k] = v` leaves every other key's lookup alone. */
  lemma {:induction false} PutOthers(m: Assoc, k: string, v: int, other: string)
    requires other != k
    ensures Find(Put(m, k, v), other) == Find(m, other)
  {
    if |m| > 0 && m[0].0 != k && m[0].0 != other {
      PutOthers(m[1..], k, v, other);
    }
  }

  /** `d[k] = v` leaves the key order alone, or appends `k` if it is new. */
  lemma {:induction false} PutKeys(m: Assoc, k: string, v: int)
    ensures Keys(Put(m, k, v)) == if k in Keys(m) then Keys(m) else Keys(m) + [k]
  {
    if |m| > 0 && m[0].0 != k {
      PutKeys(m[1..], k, v);
      assert Keys(m) == [m[0].0] + Keys(m[1..]);
    }
  }

  /** `d[k] = v` keeps keys unique. */
  lemma {:induction false} PutDistinct(m: Assoc, k: string, v: int)
    requires DistinctKeys(m)
    ensures DistinctKeys(Put(m, k, v))
  {
    if |m| > 0 {
      if m[0].0 == k {
        assert Put(m, k, v)[1..] == m[1..];
      } else {
        PutDistinct(m[1..], k, v);
        PutKeys(m[1..], k, v);
        assert Put(m, k, v)[1..] == Put(m[1..], k, v);
      }
    }
  }

  /** `d[k] = v` with a positive `v` keeps every value positive. */
  lemma {:induction false} PutPositive(m: Assoc, k: string, v: int)
    requires forall i :: 0 <= i < |m| ==> m[i].1 >= 1
    requires v >= 1
    ensures forall i :: 0 <= i < |Put(m, k, v)| ==> Put(m, k, v)[i].1 >= 1
  {
    if |m| > 0 && m[0].0 != k {
      PutPositive(m[1..], k, v);
    }
  }

  /** Sum of the values. */
  function Sum(m: Assoc): int {
    if |m| == 0 then 0 else m[0].1 + Sum(m[1..])
  }

  /** Overwriting one entry changes the sum by the difference. */
  lemma {:induction false} SumPut(m: Assoc, k: string, v: int)
    ensures Sum(Put(m, k, v)) == Sum(m) - FindOr(m, k, 0) + v
  {
    if |m| > 0 && m[0].0 != k {
      SumPut(m[1..], k, v);
      assert Put(m, k, v)[1..] == Put(m[1..], k, v);
    }
  }

  /** `d[k] += 1` on a `defaultdict(int)`. */
  function Increment(m: Assoc, k: string): Assoc {
    Put(m, k, FindOr(m, k, 0) + 1)
  }

  /** Counting one more occurrence adds one to the key's count and to the
      total. */
  lemma IncrementCounts(m: Assoc, k: string)
    ensures FindOr(Increment(m, k), k, 0) == FindOr(m, k, 0) + 1
    ensures Sum(Increment(m, k)) == Sum(m) + 1
  {
    PutFind(m, k, FindOr(m, k, 0) + 1);
    SumPut(m, k, FindOr(m, k, 0) + 1);
  }

  /** Counting a key leaves every other count alone. */
  lemma IncrementOthers(m: Assoc, k: string, other: string)
    requires other != k
    ensures FindOr(Increment(m, k), other, 0) == FindOr(m, other, 0)
  {
    PutOthers(m, k, FindOr(m, k, 0) + 1, other);
  }

  /** Counting a key keeps every count positive. */
  lemma IncrementPositive(m: Assoc, k: string)
    requires forall i :: 0 <= i < |m| ==> m[i].1 >= 1
    ensures forall i :: 0 <= i < |Increment(m, k)| ==> Increment(m, k)[i].1 >= 1
  {
    FindIn(m, k);
    if Find(m, k).Some? {
      var i :| 0 <= i < |m| && m[i] == (k, Find(m, k).value);
    }
    PutPositive(m, k, FindOr(m, k, 0) + 1);
  }

  /** Counting a key leaves the key order alone, or appends a new key. */
  lemma IncrementKeys(m: Assoc, k: string)
    ensures Keys(Increment(m, k)) == if k in Keys(m) then Keys(m) else Keys(m) + [k]
  {
    PutKeys(m, k, FindOr(m, k, 0) + 1);
  }

  /** Counting a key keeps keys unique. */
  lemma IncrementDistinct(m: Assoc, k: string)
    requires DistinctKeys(m)
    ensures DistinctKeys(Increment(m, k))
  {
    PutDistinct(m, k, FindOr(m, k, 0) + 1);
  }

  /** The distinct elements of `s` in order of first appearance. */
  function FirstSeen(s: seq<string>): (r: seq<string>)
  {
    if |s| == 0 then []
    else
      var p := FirstSeen(s[..|s| - 1]);
      if s[|s| - 1] in p then p else p + [s[|s| - 1]]
  }

  lemma FirstSeenSnoc(s: seq<string>, x: string)
    ensures FirstSeen(s + [x]) == if x in FirstSeen(s) then FirstSeen(s) else FirstSeen(s) + [x]
  {
    assert (s + [x])[..|s|] == s;
  }

  lemma {:induction false} FirstSeenMembers(s: seq<string>)
    ensures forall x :: x in FirstSeen(s) <==> x in s
  {
    if |s| > 0 {
      FirstSeenMembers(s[..|s| - 1]);
      assert s == s[..|s| - 1] + [s[|s| - 1]];
    }
  }
}

=== FILE: base.dfy ===
/** Option and Result values shared by the analyzer's parsers.

    The analyzer never validates its inputs: a call to Python's `int()` on a
    token that is not an integer raises `ValueError`, a division by a zero
    window length raises `ZeroDivisionError`, and a window boundary outside
    the calendar `datetime` can represent raises `OverflowError`. All three
    escape to the command-line layer. The model makes these outcomes
    explicit as `Err` values. */
module Base {

  datatype Option<+T> = None | Some(value: T)

  /** The three exceptions the analysis logic itself can raise. */
  datatype Failure =
    | NotAnInteger(text: string)   // Python's ValueError from int()
    | DivisionByZero               // Python's ZeroDivisionError from `/`
    | Overflow                     // Python's OverflowError from date arithmetic

  datatype Result<+T> = Ok(value: T) | Err(failure: Failure)
}

=== FILE: commitlog.dfy ===
/** `get_commit_details`: reading `git log --pretty=format:"%cd|%s"
    --date=short`, one `date|subject` line per commit. */
module CommitLog {
  import opened Text
  import opened Assoc

  /** Commits per date, in first-seen order, and the stripped subjects in
      log order. */
  datatype CommitDetails = CommitDetails(byDate: Assoc, messages: seq<string>)

  const Empty := CommitDetails([], [])

  /** Only lines holding the separator are commit records. */
  predicate IsRecord(line: string) {
    '|' in line
  }

  /** The text before the first `|`: the date key, kept verbatim. */
  function DateOf(line: string): string
    requires IsRecord(line)
  {
    SplitAtFirst(line, '|').0
  }

  /** Everything after the first `|`, later separators included. */
  function SubjectOf(line: string): string
    requires IsRecord(line)
  {
    SplitAtFirst(line, '|').1
  }

  /** One pass of the loop body over an output line. */
  function AddLine(d: CommitDetails, line: string): CommitDetails {
    if IsRecord(line) then
      CommitDetails(Increment(d.byDate, DateOf(line)), d.messages + [Strip(SubjectOf(line))])
    else
      d
  }

  function ParseLines(lines: seq<string>): CommitDetails {
    if |lines| == 0 then Empty
    else AddLine(ParseLines(lines[..|lines| - 1]), lines[|lines| - 1])
  }

  /** `get_commit_details` from the text `run_git_command` returned, which is
      already stripped (`Report.CommitDetailsOf` applies `Captured`). Each
      date is stored once, in the order of its first record line, with the
      number of record lines that carry it; the messages are the stripped
      subjects of the record lines, in log order. */
  function GetCommitDetails(output: string): (d: CommitDetails)
    ensures var lines := Split(output, '\n');
            && Keys(d.byDate) == FirstSeen(Dates(lines))
            && (forall date :: FindOr(d.byDate, date, 0) == CountDate(lines, date))
            && |d.messages| == |Records(lines)|
            && (forall i :: 0 <= i < |Records(lines)| ==> d.messages[i] == Strip(SubjectOf(Records(lines)[i])))
  {
    ParseLinesMeaning(Split(output, '\n'));
    ParseLines(Split(output, '\n'))
  }

  // ---------------------------------------------------------------------
  // Reference definitions, stated line by line

  /** The record lines, in order. */
  function Records(lines: seq<string>): (r: seq<string>)
    ensures forall i :: 0 <= i < |r| ==> IsRecord(r[i])
  {
    if |lines| == 0 then []
    else
      var last := lines[|lines| - 1];
      Records(lines[..|lines| - 1]) + (if IsRecord(last) then [last] else [])
  }

  /** The date of every record line, in order. */
  function Dates(lines: seq<string>): seq<string> {
    if |lines| == 0 then []
    else
      var last := lines[|lines| - 1];
      Dates(lines[..|lines| - 1]) + (if IsRecord(last) then [DateOf(last)] else [])
  }

  /** How many record lines carry `date`. */
  function CountDate(lines: seq<string>, date: string): nat {
    if |lines| == 0 then 0
    else
      var last := lines[|lines| - 1];
      CountDate(lines[..|lines| - 1], date) + (if IsRecord(last) && DateOf(last) == date then 1 else 0)
  }

  // ---------------------------------------------------------------------
  // Properties

  /** A record line splits at its first `|`: the date is the text before it
      and the message is the stripped rest, later `|` characters included. */
  lemma AddRecord(d: CommitDetails, date: string, rest: string)
    requires '|' !in date
    ensures AddLine(d, date + "|" + rest)
         == CommitDetails(Increment(d.byDate, date), d.messages + [Strip(rest)])
  {
    SplitAtFirstUnique(date + "|" + rest, '|', date, rest);
  }

  /** There is one message per record line: its stripped subject. */
  lemma {:induction false} MessagesAreSubjects(lines: seq<string>)
    ensures |ParseLines(lines).messages| == |Records(lines)|
    ensures forall i :: 0 <= i < |Records(lines)| ==>
              ParseLines(lines).messages[i] == Strip(SubjectOf(Records(lines)[i]))
  {
    if |lines| > 0 {
      var p, last := lines[..|lines| - 1], lines[|lines| - 1];
      MessagesAreSubjects(p);
      if IsRecord(last) {
        SubjectsAppend(ParseLines(p).messages, Records(p), last);
      }
    }
  }

  /** Appending one record line and its stripped subject keeps the two
      lists aligned. */
  lemma SubjectsAppend(messages: seq<string>, records: seq<string>, line: string)
    requires IsRecord(line) && forall i :: 0 <= i < |records| ==> IsRecord(records[i])
    requires |messages| == |records|
    requires forall i :: 0 <= i < |records| ==> messages[i] == Strip(SubjectOf(records[i]))
    ensures var m, r := messages + [Strip(SubjectOf(line))], records + [line];
            |m| == |r| && forall i :: 0 <= i < |r| ==> m[i] == Strip(SubjectOf(r[i]))
  {
  }

  /** The count stored for a date is the number of record lines with that
      date; a date with no record line is absent (count 0). */
  lemma {:induction false} CountsAreRecordCounts(lines: seq<string>, date: string)
    ensures FindOr(ParseLines(lines).byDate, date, 0) == CountDate(lines, date)
  {
    if |lines| > 0 {
      var p := lines[..|lines| - 1];
      CountsAreRecordCounts(p, date);
      AddLineCount(ParseLines(p), lines[|lines| - 1], date);
    }
  }

  /** One line's effect on the count of a date. */
  lemma AddLineCount(d: CommitDetails, line: string, date: string)
    ensures FindOr(AddLine(d, line).byDate, date, 0)
         == FindOr(d.byDate, date, 0) + (if IsRecord(line) && DateOf(line) == date then 1 else 0)
  {
    if IsRecord(line) {
      if DateOf(line) == date {
        IncrementCounts(d.byDate, date);
      } else {
        IncrementOthers(d.byDate, DateOf(line), date);
      }
    }
  }

  /** One line's effect on the date keys. */
  lemma AddLineKeys(d: CommitDetails, line: string)
    ensures Keys(AddLine(d, line).byDate)
         == if !IsRecord(line) || DateOf(line) in Keys(d.byDate) then Keys(d.byDate)
            else Keys(d.byDate) + [DateOf(line)]
  {
    if IsRecord(line) {
      IncrementKeys(d.byDate, DateOf(line));
    }
  }

  lemma AddLineDistinct(d: CommitDetails, line: string)
    requires DistinctKeys(d.byDate)
    ensures DistinctKeys(AddLine(d, line).byDate)
  {
    if IsRecord(line) {
      IncrementDistinct(d.byDate, DateOf(line));
    }
  }

  /** Dates appear in the order of their first record line. */
  lemma {:induction false} DatesFirstSeenOrder(lines: seq<string>)
    ensures Keys(ParseLines(lines).byDate) == FirstSeen(Dates(lines))
  {
    if |lines| > 0 {
      var p := lines[..|lines| - 1];
      var last := lines[|lines| - 1];
      DatesFirstSeenOrder(p);
      AddLineKeys(ParseLines(p), last);
      if IsRecord(last) {
        assert Dates(lines) == Dates(p) + [DateOf(last)];
        FirstSeenSnoc(Dates(p), DateOf(last));
      } else {
        assert Dates(lines) == Dates(p);
      }
    }
  }

  /** Each date is stored once. */
  lemma {:induction false} DatesDistinct(lines: seq<string>)
    ensures DistinctKeys(ParseLines(lines).byDate)
  {
    if |lines| > 0 {
      DatesDistinct(lines[..|lines| - 1]);
      AddLineDistinct(ParseLines(lines[..|lines| - 1]), lines[|lines| - 1]);
    }
  }

  /** The per-date counts add up to the number of messages. */
  lemma {:induction false} CountsSumToMessages(lines: seq<string>)
    ensures Sum(ParseLines(lines).byDate) == |ParseLines(lines).messages|
  {
    if |lines| > 0 {
      var p := lines[..|lines| - 1];
      var last := lines[|lines| - 1];
      CountsSumToMessages(p);
      if IsRecord(last) {
        IncrementCounts(ParseLines(p).byDate, DateOf(last));
      }
    }
  }

  /** Every stored count is at least one. */
  lemma {:induction false} CountsPositive(lines: seq<string>)
    ensures forall i :: 0 <= i < |ParseLines(lines).byDate| ==> ParseLines(lines).byDate[i].1 >= 1
  {
    if |lines| > 0 {
      var p := lines[..|lines| - 1];
      var last := lines[|lines| - 1];
      CountsPositive(p);
      if IsRecord(last) {
        IncrementPositive(ParseLines(p).byDate, DateOf(last));
      }
    }
  }

  /** Empty output holds no commit. */
  lemma EmptyLog()
    ensures GetCommitDetails("") == Empty
  {
    SplitSingle("", '\n');
    var lines: seq<string> := [""];
    assert lines[..0] == [];
    assert !IsRecord("");
  }

  /** The parse of any lines, summed up. */
  lemma ParseLinesMeaning(lines: seq<string>)
    ensures var d := ParseLines(lines);
            && Keys(d.byDate) == FirstSeen(Dates(lines))
            && (forall date :: FindOr(d.byDate, date, 0) == CountDate(lines, date))
            && |d.messages| == |Records(lines)|
            && (forall i :: 0 <= i < |Records(lines)| ==> d.messages[i] == Strip(SubjectOf(Records(lines)[i])))
  {
    DatesFirstSeenOrder(lines);
    MessagesAreSubjects(lines);
    forall date
      ensures FindOr(ParseLines(lines).byDate, date, 0) == CountDate(lines, date)
    {
      CountsAreRecordCounts(lines, date);
    }
  }

  /** Each stored pair is a date of the log with its number of record
      lines. */
  lemma StoredPair(lines: seq<string>, date: string, count: int)
    requires (date, count) in ParseLines(lines).byDate
    ensures date in Dates(lines)
    ensures count == CountDate(lines, date) >= 1
  {
    var m := ParseLines(lines).byDate;
    DatesDistinct(lines);
    CountsPositive(lines);
    FindStored(m, date, count);
    CountsAreRecordCounts(lines, date);
    DatesFirstSeenOrder(lines);
    FirstSeenMembers(Dates(lines));
    var j :| 0 <= j < |m| && m[j] == (date, count);
    assert Keys(m)[j] == date;
  }
}

=== FILE: complexity.dfy ===
/** `analyze_commit_complexity`: each commit message is put in the first
    keyword tier it mentions, case-insensitively, and the tiers are
    counted. */
module Complexity {
  import opened Base
  import opened Text

  datatype Tier = High | Medium | Low

  const HighKeywords: seq<string> :=
    ["refactor", "architecture", "implement", "integration", "system", "pipeline", "migration"]
  const MediumKeywords: seq<string> := ["feat", "feature", "enhance", "improve", "add", "update"]
  const LowKeywords: seq<string> := ["fix", "bug", "typo", "cleanup", "docs", "chore"]

  /** The keyword table in the dict's insertion order: high, medium, low. */
  const Tiers: seq<(Tier, seq<string>)> := [(High, HighKeywords), (Medium, MediumKeywords), (Low, LowKeywords)]

  /** `any(keyword in text for keyword in keywords)`. */
  predicate MentionsAny(text: string, keywords: seq<string>) {
    exists i :: 0 <= i < |keywords| && Contains(text, keywords[i])
  }

  /** The tier of the first row whose keywords `text` mentions: the loop
      over the table that stops at its first `break`. */
  function FirstTier(rows: seq<(Tier, seq<string>)>, text: string): Option<Tier> {
    if |rows| == 0 then None
    else if MentionsAny(text, rows[0].1) then Some(rows[0].0)
    else FirstTier(rows[1..], text)
  }

  /** The tier one message is counted under. The table order decides:
      high whenever a high keyword occurs, medium when a medium keyword
      occurs and no high one, low only when a low keyword occurs and neither
      a high nor a medium one, and medium when nothing matches. */
  function Classify(message: string): (t: Tier)
    ensures var text := Lower(message);
            && (t == High <==> MentionsAny(text, HighKeywords))
            && (t == Low <==>
                  !MentionsAny(text, HighKeywords) && !MentionsAny(text, MediumKeywords)
                  && MentionsAny(text, LowKeywords))
            && (t == Medium <==>
                  !MentionsAny(text, HighKeywords)
                  && (MentionsAny(text, MediumKeywords) || !MentionsAny(text, LowKeywords)))
  {
    TableOrder(Lower(message));
    match FirstTier(Tiers, Lower(message))
    case Some(t) => t
    case None => Medium
  }

  /** The loop over the table is the chain of `if`s in table order. */
  lemma TableOrder(text: string)
    ensures FirstTier(Tiers, text)
         == if MentionsAny(text, HighKeywords) then Some(High)
            else if MentionsAny(text, MediumKeywords) then Some(Medium)
            else if MentionsAny(text, LowKeywords) then Some(Low)
            else None
  {
    var rest := [(Medium, MediumKeywords), (Low, LowKeywords)];
    assert Tiers == [(High, HighKeywords)] + rest;
    assert rest[1..] == [(Low, LowKeywords)];
    assert rest[1..][1..] == [];
    if !MentionsAny(text, HighKeywords) {
      assert FirstTier(Tiers, text) == FirstTier(rest, text);
      if !MentionsAny(text, MediumKeywords) {
        assert FirstTier(rest, text) == FirstTier(rest[1..], text);
      }
    }
  }

  datatype ComplexityCounts = ComplexityCounts(high: nat, medium: nat, low: nat)

  const NoCounts := ComplexityCounts(0, 0, 0)

  function CountOf(c: ComplexityCounts, t: Tier): nat {
    match t
    case High => c.high
    case Medium => c.medium
    case Low => c.low
  }

  function Total(c: ComplexityCounts): nat {
    c.high + c.medium + c.low
  }

  /** `complexity_counts[level] += 1`. */
  function Bump(c: ComplexityCounts, t: Tier): ComplexityCounts {
    match t
    case High => c.(high := c.high + 1)
    case Medium => c.(medium := c.medium + 1)
    case Low => c.(low := c.low + 1)
  }

  /** The tier of every message, in order. */
  function Classified(messages: seq<string>): (ts: seq<Tier>)
    ensures |ts| == |messages|
    ensures forall i :: 0 <= i < |messages| ==> ts[i] == Classify(messages[i])
  {
    if |messages| == 0 then [] else Classified(messages[..|messages| - 1]) + [Classify(messages[|messages| - 1])]
  }

  /** The counting loop over the tiers of the messages. */
  function CountTiers(ts: seq<Tier>): ComplexityCounts {
    if |ts| == 0 then NoCounts
    else Bump(CountTiers(ts[..|ts| - 1]), ts[|ts| - 1])
  }

  /** The whole of `analyze_commit_complexity`. Every message lands in
      exactly one tier: the counts add up to the number of messages, and
      each is the number of messages classified there. */
  function Analyze(messages: seq<string>): (c: ComplexityCounts)
    ensures Total(c) == |messages|
    ensures forall t :: CountOf(c, t) == multiset(Classified(messages))[t]
  {
    CountTiersCounts(Classified(messages));
    CountTiers(Classified(messages))
  }

  // ---------------------------------------------------------------------
  // Properties

  lemma BumpCounts(c: ComplexityCounts, t: Tier)
    ensures forall u :: CountOf(Bump(c, t), u) == CountOf(c, u) + (if u == t then 1 else 0)
    ensures Total(Bump(c, t)) == Total(c) + 1
  {
  }

  /** Each tier's count is the number of messages in that tier. */
  lemma {:induction false} CountTiersCounts(ts: seq<Tier>)
    ensures forall t :: CountOf(CountTiers(ts), t) == multiset(ts)[t]
    ensures Total(CountTiers(ts)) == |ts|
  {
    if |ts| > 0 {
      var p := ts[..|ts| - 1];
      CountTiersCounts(p);
      BumpCounts(CountTiers(p), ts[|ts| - 1]);
      assert ts == p + [ts[|ts| - 1]];
    }
  }

  /** Counting is additive over consecutive runs of messages. */
  lemma AnalyzeAppend(a: seq<string>, b: seq<string>)
    ensures forall t :: CountOf(Analyze(a + b), t) == CountOf(Analyze(a), t) + CountOf(Analyze(b), t)
  {
    var ta := Classified(a);
    var tb := Classified(b);
    assert Classified(a + b) == ta + tb;
    CountTiersCounts(ta + tb);
    CountTiersCounts(ta);
    CountTiersCounts(tb);
  }

  // ---------------------------------------------------------------------
  // Examples

  lemma LongerAbsent(s: string, sub: string)
    requires |sub| > |s|
    ensures !Contains(s, sub)
  {
    ContainsIff(s, sub);
  }

  lemma FirstCharAbsent(s: string, sub: string)
    requires |sub| > 0 && sub[0] !in s
    ensures !Contains(s, sub)
  {
    ContainsIff(s, sub);
    forall i: nat | i + |sub| <= |s|
      ensures !OccursAt(s, sub, i)
    {
      assert s[i..i + |sub|][0] == s[i];
    }
  }

  lemma {:induction false} LowerAppend(a: string, b: string)
    ensures Lower(a + b) == Lower(a) + Lower(b)
  {
    var l := Lower(a + b);
    var r := Lower(a) + Lower(b);
    forall i | 0 <= i < |l|
      ensures l[i] == r[i]
    {
      if i < |a| {
        assert (a + b)[i] == a[i];
        assert r[i] == Lower(a)[i];
      } else {
        assert (a + b)[i] == b[i - |a|];
        assert r[i] == Lower(b)[i - |a|];
      }
    }
    assert l == r;
  }

  lemma LowerRefactor()
    ensures Lower("Refactor") == "refactor"
  {
  }

  /** Text starting with a keyword mentions its row. */
  lemma StartsWithKeyword(text: string, keywords: seq<string>, i: nat)
    requires i < |keywords| && IsPrefix(keywords[i], text)
    ensures MentionsAny(text, keywords)
  {
    assert Contains(text, keywords[i]);
  }

  /** A high keyword wins over the low ones in the same message. */
  lemma RefactorFixTypoIsHigh()
    ensures Classify("Refactor: fix typo") == High
  {
    LowerRefactor();
    assert "Refactor" + ": fix typo" == "Refactor: fix typo";
    RefactorPrefixIsHigh("Refactor", ": fix typo");
  }

  /** Whatever follows a word that lower-cases to "refactor", the message
      is high. */
  lemma RefactorPrefixIsHigh(head: string, tail: string)
    requires Lower(head) == "refactor"
    ensures Classify(head + tail) == High
  {
    LowerAppend(head, tail);
    var text := Lower(head + tail);
    assert text[..8] == "refactor";
    StartsWithKeyword(text, HighKeywords, 0);
    HighWhenMentioned(head + tail);
  }

  /** A message mentioning a high keyword is high, whatever else it
      mentions. */
  lemma HighWhenMentioned(message: string)
    requires MentionsAny(Lower(message), HighKeywords)
    ensures Classify(message) == High
  {
    assert Tiers[0] == (High, HighKeywords);
  }

  /** No keyword of the row occurs: each is longer than the text or starts
      with a character the text lacks. */
  lemma MentionsNone(text: string, keywords: seq<string>)
    requires forall i :: 0 <= i < |keywords| ==>
               |keywords[i]| > |text| || (|keywords[i]| > 0 && keywords[i][0] !in text)
    ensures !MentionsAny(text, keywords)
  {
    forall i | 0 <= i < |keywords|
      ensures !Contains(text, keywords[i])
    {
      if |keywords[i]| > |text| {
        LongerAbsent(text, keywords[i]);
      } else {
        FirstCharAbsent(text, keywords[i]);
      }
    }
  }

  /** A message whose only keyword is a low one is low. */
  lemma TypoIsLow()
    ensures Classify("Typo") == Low
  {
    var text := Lower("Typo");
    assert text == "typo";
    MentionsNone(text, HighKeywords);
    MentionsNone(text, MediumKeywords);
    StartsWithKeyword(text, LowKeywords, 2);
  }

  /** A message that mentions no keyword of any tier defaults to medium. */
  lemma NoKeywordIsMedium(message: string)
    requires forall row :: row in Tiers ==> !MentionsAny(Lower(message), row.1)
    ensures Classify(message) == Medium
  {
    assert (High, HighKeywords) in Tiers;
    assert (Low, LowKeywords) in Tiers;
  }

  /** "wip" mentions no keyword and is medium. */
  lemma WipIsMedium()
    ensures Classify("wip") == Medium
  {
    var text := Lower("wip");
    assert text == "wip";
    MentionsNone(text, HighKeywords);
    MentionsNone(text, MediumKeywords);
    MentionsNone(text, LowKeywords);
    forall row | row in Tiers
      ensures !MentionsAny(text, row.1)
    {
    }
    NoKeywordIsMedium("wip");
  }
}

=== FILE: filechanges.dfy ===
/** `get_file_changes`: reading the output of `git log --name-only | sort |
    uniq -c | sort -nr`, one `<count> <file name>` line per file, most
    changed first. Only the first ten lines are read. */
module FileChanges {
  import opened Base
  import opened Text
  import opened Numbers
  import opened Assoc

  /** How many output lines are read. */
  const LineLimit: nat := 10

  /** What one output line contributes. */
  datatype Entry = Ignored | Count(name: string, changes: int)

  /** The tokens of a non-blank line: fewer than two are ignored;
      otherwise the first is the count (`int()` may fail) and the remaining
      tokens, re-joined by single spaces, are the file name. */
  function ReadWords(parts: seq<string>): (r: Result<Entry>)
    ensures r == Ok(Ignored) <==> |parts| < 2
    ensures r.Err? <==> |parts| >= 2 && ParseInt(parts[0]).Err?
    ensures r.Err? ==> r.failure == NotAnInteger(parts[0])
    ensures r.Ok? && r.value.Count? ==>
              |parts| >= 2 && ParseInt(parts[0]) == Ok(r.value.changes) && r.value.name == JoinSpaces(parts[1..])
  {
    if |parts| < 2 then Ok(Ignored)
    else
      match ParseInt(parts[0])
      case Err(e) => Err(e)
      case Ok(n) => Ok(Count(JoinSpaces(parts[1..]), n))
  }

  /** One pass of the loop body: a blank line is skipped, any other is
      split at whitespace after `strip()`. Neither the `strip()` nor the
      blank-line test changes anything: a line reads as its whitespace-
      separated tokens. Fewer than two tokens: ignored; else the first token
      must be an integer, and the name is the other tokens joined by single
      spaces. */
  function ReadLine(line: string): (r: Result<Entry>)
    ensures r == ReadWords(Words(line))
  {
    WordsStrip(line);
    if Strip(line) == "" then Ok(Ignored) else ReadWords(Words(Strip(line)))
  }

  /** The line readings, in order. */
  function ReadLines(lines: seq<string>): (rs: seq<Result<Entry>>)
    ensures |rs| == |lines|
    ensures forall i :: 0 <= i < |lines| ==> rs[i] == ReadLine(lines[i])
  {
    seq(|lines|, i requires 0 <= i < |lines| => ReadLine(lines[i]))
  }

  /** `file_changes[filename] = count` for a counted line. */
  function Apply(m: Assoc, entry: Entry): Assoc {
    match entry
    case Ignored => m
    case Count(name, n) => Put(m, name, n)
  }

  /** The loop over the readings: each counted line sets
      `file_changes[name]`; the first line whose count is not an integer
      aborts with its error. */
  function Collect(rs: seq<Result<Entry>>): Result<Assoc> {
    if |rs| == 0 then Ok([])
    else
      match Collect(rs[..|rs| - 1])
      case Err(e) => Err(e)
      case Ok(m) =>
        match rs[|rs| - 1]
        case Err(e) => Err(e)
        case Ok(entry) => Ok(Apply(m, entry))
  }

  function ParseCounts(lines: seq<string>): Result<Assoc> {
    Collect(ReadLines(lines))
  }

  /** `result.split('\n')[:10]`: the first ten lines, or all of them when
      there are fewer. */
  function FirstLines(output: string): (ls: seq<string>)
    ensures |ls| == if |Split(output, '\n')| <= LineLimit then |Split(output, '\n')| else LineLimit
    ensures ls == Split(output, '\n')[..|ls|]
  {
    var lines := Split(output, '\n');
    if |lines| <= LineLimit then lines else lines[..LineLimit]
  }

  /** `get_file_changes` from the text `run_git_command` returned, which is
      already stripped (`Report.FileChangesOf` applies `Captured`). Only the
      first ten lines are read. The call fails exactly when one of them has a
      non-integer count, and then with the error of the first such line.
      Otherwise at most ten files are reported, each once, in the order of
      their first counted line, each with the count of its last one. */
  function GetFileChanges(output: string): (r: Result<Assoc>)
    ensures var lines := FirstLines(output);
            && (r.Ok? <==> forall i :: 0 <= i < |lines| ==> ReadLine(lines[i]).Ok?)
            && (r.Err? ==> exists i :: 0 <= i < |lines| && ReadLine(lines[i]) == Err(r.failure)
                                       && forall j :: 0 <= j < i ==> ReadLine(lines[j]).Ok?)
    ensures r.Ok? ==> |r.value| <= LineLimit && DistinctKeys(r.value)
    ensures r.Ok? ==> Keys(r.value) == FirstSeen(Keys(Counted(ReadLines(FirstLines(output)))))
    ensures r.Ok? ==> forall name :: Find(r.value, name) == LastCount(ReadLines(FirstLines(output)), name)
  {
    ParseCountsMeaning(FirstLines(output));
    ParseCounts(FirstLines(output))
  }

  // ---------------------------------------------------------------------
  // Reference definitions, over the line readings

  /** The (name, count) pairs of the counted lines, in order. */
  function Counted(rs: seq<Result<Entry>>): seq<(string, int)> {
    if |rs| == 0 then []
    else
      var last := rs[|rs| - 1];
      Counted(rs[..|rs| - 1]) + (if last.Ok? && last.value.Count? then [(last.value.name, last.value.changes)] else [])
  }

  /** The count on the last counted line naming `name`. */
  function LastCount(rs: seq<Result<Entry>>, name: string): Option<int> {
    if |rs| == 0 then None
    else
      var last := rs[|rs| - 1];
      if last.Ok? && last.value.Count? && last.value.name == name then Some(last.value.changes)
      else LastCount(rs[..|rs| - 1], name)
  }

  // ---------------------------------------------------------------------
  // Properties

  lemma UniqLineWords(pad: string, n: int, ws: seq<string>)
    requires AllSpace(pad)
    requires |ws| >= 1 && ProperWords(ws)
    ensures Words(pad + IntToString(n) + " " + JoinSpaces(ws)) == [IntToString(n)] + ws
  {
    var digits := IntToString(n);
    ReadSignedOfString(n);
    assert NoSpace(digits);
    assert pad + digits + " " + JoinSpaces(ws) == pad + (digits + " " + JoinSpaces(ws));
    WordsLeading(pad, digits + " " + JoinSpaces(ws));
    WordsSpaceThen(digits, JoinSpaces(ws));
    WordsJoinSpaces(ws);
  }

  /** A line whose first token reads as `n` is counted under the other
      tokens. */
  lemma ReadLineOfWords(line: string, n: int, rest: seq<string>)
    requires |rest| >= 1
    requires Words(line) == [IntToString(n)] + rest
    ensures ReadLine(line) == Ok(Count(JoinSpaces(rest), n))
  {
    ParseIntOfString(n);
    assert Words(line)[1..] == rest;
  }

  /** A line as `uniq -c` prints it, with the count right-aligned in
      whitespace and a file name made of single-space-separated words, reads
      back as that name and count. */
  lemma ReadsUniqLine(pad: string, n: int, ws: seq<string>)
    requires AllSpace(pad)
    requires |ws| >= 1 && ProperWords(ws)
    ensures ReadLine(pad + IntToString(n) + " " + JoinSpaces(ws)) == Ok(Count(JoinSpaces(ws), n))
  {
    UniqLineWords(pad, n, ws);
    ReadLineOfWords(pad + IntToString(n) + " " + JoinSpaces(ws), n, ws);
  }

  /** The loop succeeds exactly when every reading does. */
  lemma {:induction false} CollectSucceeds(rs: seq<Result<Entry>>)
    ensures Collect(rs).Ok? <==> forall i :: 0 <= i < |rs| ==> rs[i].Ok?
  {
    if |rs| > 0 {
      var p := rs[..|rs| - 1];
      CollectSucceeds(p);
      assert forall i :: 0 <= i < |p| ==> rs[i] == p[i];
    }
  }

  /** A failed loop reports the first failed reading. */
  lemma {:induction false} CollectFirstError(rs: seq<Result<Entry>>)
    requires Collect(rs).Err?
    ensures exists i :: 0 <= i < |rs| && rs[i] == Err(Collect(rs).failure)
                        && forall j :: 0 <= j < i ==> rs[j].Ok?
  {
    var p := rs[..|rs| - 1];
    assert forall i :: 0 <= i < |p| ==> rs[i] == p[i];
    if Collect(p).Err? {
      CollectFirstError(p);
      var i :| 0 <= i < |p| && p[i] == Err(Collect(p).failure)
               && forall j :: 0 <= j < i ==> p[j].Ok?;
      assert rs[i] == Err(Collect(rs).failure);
    } else {
      CollectSucceeds(p);
    }
  }

  /** `get_file_changes` succeeds exactly when the count of every line
      read is an integer. */
  lemma ParseCountsSucceeds(lines: seq<string>)
    ensures ParseCounts(lines).Ok? <==> forall i :: 0 <= i < |lines| ==> ReadLine(lines[i]).Ok?
  {
    CollectSucceeds(ReadLines(lines));
  }

  /** A failure is the error of the first line whose count is not an
      integer. */
  lemma ParseCountsFirstError(lines: seq<string>)
    requires ParseCounts(lines).Err?
    ensures exists i :: 0 <= i < |lines| && ReadLine(lines[i]) == Err(ParseCounts(lines).failure)
                        && forall j :: 0 <= j < i ==> ReadLine(lines[j]).Ok?
  {
    CollectFirstError(ReadLines(lines));
  }

  /** One line's effect on the stored names. */
  lemma ApplyKeys(m: Assoc, entry: Entry)
    ensures Keys(Apply(m, entry))
         == if entry.Count? && entry.name !in Keys(m) then Keys(m) + [entry.name] else Keys(m)
  {
    if entry.Count? {
      PutKeys(m, entry.name, entry.changes);
    }
  }

  lemma ApplyDistinct(m: Assoc, entry: Entry)
    requires DistinctKeys(m)
    ensures DistinctKeys(Apply(m, entry))
  {
    if entry.Count? {
      PutDistinct(m, entry.name, entry.changes);
    }
  }

  /** Each file name is stored once and there are no more entries than
      lines read. */
  lemma {:induction false} CollectDistinct(rs: seq<Result<Entry>>)
    requires Collect(rs).Ok?
    ensures DistinctKeys(Collect(rs).value)
    ensures |Collect(rs).value| <= |rs|
  {
    if |rs| > 0 {
      var p := rs[..|rs| - 1];
      CollectDistinct(p);
      var m := Collect(p).value;
      var entry := rs[|rs| - 1].value;
      ApplyDistinct(m, entry);
      ApplyKeys(m, entry);
    }
  }

  /** File names appear in the order of their first counted line. */
  lemma {:induction false} CollectOrder(rs: seq<Result<Entry>>)
    requires Collect(rs).Ok?
    ensures Keys(Collect(rs).value) == FirstSeen(Keys(Counted(rs)))
  {
    if |rs| > 0 {
      var p := rs[..|rs| - 1];
      CollectOrder(p);
      var m := Collect(p).value;
      var entry := rs[|rs| - 1].value;
      ApplyKeys(m, entry);
      var pairs := Counted(p);
      if entry.Count? {
        assert Counted(rs) == pairs + [(entry.name, entry.changes)];
        KeysSnoc(pairs, (entry.name, entry.changes));
        FirstSeenSnoc(Keys(pairs), entry.name);
      } else {
        assert Counted(rs) == pairs;
      }
    }
  }

  /** The count stored for a name is the one on the last line naming it:
      a later line overwrites an earlier one. */
  lemma {:induction false} CollectFind(rs: seq<Result<Entry>>, name: string)
    requires Collect(rs).Ok?
    ensures Find(Collect(rs).value, name) == LastCount(rs, name)
  {
    if |rs| > 0 {
      var p := rs[..|rs| - 1];
      CollectFind(p, name);
      ApplyFind(Collect(p).value, rs[|rs| - 1].value, name);
    }
  }

  /** One line's effect on the lookup of a name. */
  lemma ApplyFind(m: Assoc, entry: Entry, name: string)
    ensures Find(Apply(m, entry), name)
         == if entry.Count? && entry.name == name then Some(entry.changes) else Find(m, name)
  {
    if entry.Count? {
      if entry.name == name {
        PutFind(m, name, entry.changes);
      } else {
        PutOthers(m, entry.name, entry.changes, name);
      }
    }
  }

  /** The loop over any lines, summed up: it fails exactly at the first
      line with a non-integer count; otherwise the names are distinct, no
      more than the lines, first-seen ordered, and carry their last counts. */
  lemma ParseCountsMeaning(lines: seq<string>)
    ensures var r := ParseCounts(lines);
            && (r.Ok? <==> forall i :: 0 <= i < |lines| ==> ReadLine(lines[i]).Ok?)
            && (r.Err? ==> exists i :: 0 <= i < |lines| && ReadLine(lines[i]) == Err(r.failure)
                                       && forall j :: 0 <= j < i ==> ReadLine(lines[j]).Ok?)
            && (r.Ok? ==> |r.value| <= |lines| && DistinctKeys(r.value))
            && (r.Ok? ==> Keys(r.value) == FirstSeen(Keys(Counted(ReadLines(lines)))))
            && (r.Ok? ==> forall name :: Find(r.value, name) == LastCount(ReadLines(lines), name))
  {
    var rs := ReadLines(lines);
    ParseCountsSucceeds(lines);
    if Collect(rs).Ok? {
      CollectDistinct(rs);
      CollectOrder(rs);
      forall name
        ensures Find(Collect(rs).value, name) == LastCount(rs, name)
      {
        CollectFind(rs, name);
      }
    } else {
      ParseCountsFirstError(lines);
    }
  }

  /** Empty output lists no file. */
  lemma EmptyListing()
    ensures GetFileChanges("") == Ok([])
  {
    assert FirstLines("") == [""] by { SplitSingle("", '\n'); }
    BlankLineIgnored();
  }

  /** A single blank line is ignored. */
  lemma BlankLineIgnored()
    ensures ParseCounts([""]) == Ok([])
  {
    var rs := ReadLines([""]);
    assert rs == [Ok(Ignored)] by { assert Words("") == []; }
    assert rs[..0] == [];
  }

  /** Lines after the tenth are never read, even malformed ones. */
  lemma LaterLinesIgnored(first: seq<string>, rest: seq<string>)
    requires |first| == LineLimit && |rest| >= 1
    requires forall k :: 0 <= k < |first| ==> '\n' !in first[k]
    requires forall k :: 0 <= k < |rest| ==> '\n' !in rest[k]
    ensures GetFileChanges(Join(first + rest, '\n')) == GetFileChanges(Join(first, '\n'))
  {
    var all := first + rest;
    assert forall k :: 0 <= k < |all| ==> '\n' !in all[k];
    SplitJoin(all, '\n');
    SplitJoin(first, '\n');
    assert all[..LineLimit] == first;
  }
}

=== FILE: gitoutput.dfy ===
/** `run_git_command` and `get_commit_count`: what the analyzer makes of a
    shell command's result. Running the command is outside the model; its
    outcome is an input. */
module GitOutput {
  import opened Base
  import opened Text
  import opened Numbers

  /** How a `subprocess.run(..., check=True)` call ended: exit status zero
      with its standard output, or a non-zero status (`CalledProcessError`)
      with its standard error. */
  datatype Outcome = Exited(stdout: string) | Failed(stderr: string)

  /** The text `run_git_command` hands back: the output without surrounding
      whitespace, or the empty string when the command failed. */
  function Captured(o: Outcome): (r: string)
    ensures TrimmedEnds(r)
    ensures o.Failed? ==> r == ""
    ensures o.Exited? ==> exists i :: OccursStripped(o.stdout, r, i)
  {
    match o
    case Exited(out) => Strip(out)
    case Failed(_) => ""
  }

  /** The command failed or printed nothing but whitespace. */
  predicate Silent(o: Outcome) {
    o.Failed? || AllSpace(o.stdout)
  }

  /** A silent command hands back the empty string. */
  lemma SilentCapturesNothing(o: Outcome)
    requires Silent(o)
    ensures Captured(o) == ""
  {
    if o.Exited? {
      StripPadded(o.stdout, "", "");
      assert o.stdout + "" + "" == o.stdout;
    }
  }

  /** `get_commit_count`: the number `wc -l` printed; no output at all
      counts as zero, and output that is not an integer makes `int()`
      raise. */
  function CommitCount(o: Outcome): (r: Result<int>)
    ensures r.Err? <==> Captured(o) != "" && ParseInt(Captured(o)).Err?
    ensures r.Err? ==> r.failure == NotAnInteger(Captured(o))
    ensures Captured(o) == "" ==> r == Ok(0)
  {
    var text := Captured(o);
    if text == "" then Ok(0) else ParseInt(text)
  }

  /** A failed command, or one that printed only whitespace, counts zero
      commits. */
  lemma SilentCountsZero(o: Outcome)
    requires Silent(o)
    ensures CommitCount(o) == Ok(0)
  {
    SilentCapturesNothing(o);
  }

  /** The decimal form of a number survives the trimming. */
  lemma CapturesNumber(pad: string, n: int, trail: string)
    requires AllSpace(pad) && AllSpace(trail)
    ensures Captured(Exited(pad + IntToString(n) + trail)) == IntToString(n)
  {
    ReadSignedOfString(n);
    StripPadded(pad, IntToString(n), trail);
  }

  /** `wc -l` prints the line count padded with blanks and ended by a
      newline; the count is read back exactly. */
  lemma ReadsLineCount(pad: string, n: nat, trail: string)
    requires AllSpace(pad) && AllSpace(trail)
    ensures CommitCount(Exited(pad + IntToString(n) + trail)) == Ok(n)
  {
    CapturesNumber(pad, n, trail);
    ParseIntOfString(n);
  }
}

=== FILE: linestats.dfy ===
/** `get_lines_changed`: totals read from the summary lines of
    `git log --stat`, such as
    ` 5 files changed, 123 insertions(+), 45 deletions(-)`. */
module LineStats {
  import opened Base
  import opened Text
  import opened Numbers

  datatype LineTotals = LineTotals(insertions: nat, deletions: nat)

  const Zero := LineTotals(0, 0)

  function Add(a: LineTotals, b: LineTotals): LineTotals {
    LineTotals(a.insertions + b.insertions, a.deletions + b.deletions)
  }

  /** End of the run of digits that starts at `i`. */
  function DigitRunEnd(s: string, i: nat): (j: nat)
    requires i <= |s|
    ensures i <= j <= |s|
    ensures forall k :: i <= k < j ==> IsDigit(s[k])
    ensures j == |s| || !IsDigit(s[j])
    decreases |s| - i
  {
    if i < |s| && IsDigit(s[i]) then DigitRunEnd(s, i + 1) else i
  }

  /** The regex `(\d+) <word>` matches at index `i`. A shorter digit run is
      followed by a digit, not a space, so greedy `\d+` never has to back
      off: the match exists exactly when the whole run is followed by a
      space and `word`. */
  predicate MatchAt(s: string, word: string, i: nat) {
    i < |s| && IsDigit(s[i]) && IsPrefix(" " + word, s[DigitRunEnd(s, i)..])
  }

  /** The leftmost match at or after `from`: the one `re.findall` lists
      first. */
  function FirstMatch(s: string, word: string, from: nat): (r: Option<nat>)
    requires from <= |s|
    ensures r.Some? ==> from <= r.value && MatchAt(s, word, r.value)
    ensures forall k :: from <= k < (if r.Some? then r.value else |s|) ==> !MatchAt(s, word, k)
    decreases |s| - from
  {
    if from == |s| then None
    else if MatchAt(s, word, from) then Some(from)
    else FirstMatch(s, word, from + 1)
  }

  /** The match at `i` is the leftmost one in `s`. */
  predicate Leftmost(s: string, word: string, i: nat) {
    MatchAt(s, word, i) && forall k: nat :: k < i ==> !MatchAt(s, word, k)
  }

  /** The number the digit run starting at `i` spells. */
  function NumberAt(s: string, i: nat): nat
    requires i <= |s|
  {
    DigitsValue(s[i..DigitRunEnd(s, i)])
  }

  /** `int(re.findall(r'(\d+) <word>', line)[0])` when there is a match. */
  function FirstCount(line: string, word: string): Option<nat> {
    match FirstMatch(line, word, 0)
    case Some(i) => Some(NumberAt(line, i))
    case None => None
  }

  function CountOrZero(c: Option<nat>): nat {
    match c
    case Some(n) => n
    case None => 0
  }

  /** One pass of the loop body: a line mentioning neither word is skipped;
      otherwise each total grows by the first number before its word. Stated
      through the regex alone: each total is the number at the leftmost
      match of `(\d+) <word>`, and 0 when the regex matches nowhere. */
  function LineContribution(line: string): (r: LineTotals)
    ensures forall i: nat :: Leftmost(line, "insertion", i) ==> r.insertions == NumberAt(line, i)
    ensures (forall i: nat :: !MatchAt(line, "insertion", i)) ==> r.insertions == 0
    ensures forall i: nat :: Leftmost(line, "deletion", i) ==> r.deletions == NumberAt(line, i)
    ensures (forall i: nat :: !MatchAt(line, "deletion", i)) ==> r.deletions == 0
  {
    CountIsLeftmost(line, "insertion");
    CountIsLeftmost(line, "deletion");
    if Contains(line, "insertion") || Contains(line, "deletion") then
      LineTotals(CountOrZero(FirstCount(line, "insertion")), CountOrZero(FirstCount(line, "deletion")))
    else
      Zero
  }

  /** The number `re.findall(r'(\d+) <word>', line)[0]` reads, or 0 when the
      list is empty, is the one at the leftmost match; a line without the
      word has no match. */
  lemma CountIsLeftmost(line: string, word: string)
    ensures forall i: nat :: Leftmost(line, word, i) ==> CountOrZero(FirstCount(line, word)) == NumberAt(line, i)
    ensures (forall i: nat :: !MatchAt(line, word, i)) ==> CountOrZero(FirstCount(line, word)) == 0
    ensures !Contains(line, word) ==> FirstCount(line, word).None?
  {
    var r := FirstMatch(line, word, 0);
    forall i: nat | Leftmost(line, word, i)
      ensures CountOrZero(FirstCount(line, word)) == NumberAt(line, i)
    {
      assert r.Some?;
      assert r.value == i;
    }
    if r.Some? {
      MatchMentionsWord(line, word, r.value);
    }
  }

  /** The loop over lines, for any per-line contribution `f`. */
  function SumOver<E>(lines: seq<E>, f: E -> LineTotals): LineTotals {
    if |lines| == 0 then LineTotals(0, 0)
    else Add(SumOver(lines[..|lines| - 1], f), f(lines[|lines| - 1]))
  }

  function Totals(lines: seq<string>): LineTotals {
    SumOver(lines, LineContribution)
  }

  /** `get_lines_changed` from the text `run_git_command` returned, which is
      already stripped (`Report.LinesChangedOf` applies `Captured`). */
  function GetLinesChanged(output: string): (r: LineTotals)
    ensures r == Totals(Mentioning(Split(output, '\n')))
    ensures '\n' !in output ==> r == LineContribution(output)
  {
    OnlyMentioningLinesCount(Split(output, '\n'));
    SingleLineTotals(output);
    Totals(Split(output, '\n'))
  }

  // ---------------------------------------------------------------------
  // Properties

  /** Inside a digit run every index ends at the same place. */
  lemma {:induction false} DigitRunEndShared(s: string, i: nat)
    requires i + 1 <= |s| && IsDigit(s[i])
    ensures DigitRunEnd(s, i) == DigitRunEnd(s, i + 1)
  {
  }

  /** `MatchAt` is the regex: `(\d+) <word>` matches at `i` exactly when some
      non-empty run of digits from `i` is followed by a space and `word`.
      Backtracking cannot help, because a shorter run ends before a digit. */
  lemma MatchAtIff(s: string, word: string, i: nat)
    ensures MatchAt(s, word, i) <==>
              exists k :: i < k <= |s| && (forall j :: i <= j < k ==> IsDigit(s[j])) && IsPrefix(" " + word, s[k..])
  {
    if i < |s| && IsDigit(s[i]) {
      var e := DigitRunEnd(s, i);
      assert i < e;
      if MatchAt(s, word, i) {
        assert forall j :: i <= j < e ==> IsDigit(s[j]);
      }
      forall k | i < k <= |s| && (forall j :: i <= j < k ==> IsDigit(s[j])) && IsPrefix(" " + word, s[k..])
        ensures k == e
      {
        assert s[k..][0] == ' ';
        assert !IsDigit(s[k]);
      }
    }
  }

  /** The leftmost match starts a digit run, so the whole number before the
      word is read (`123 insertions` gives 123, not 23). */
  lemma FirstMatchWholeNumber(s: string, word: string)
    ensures FirstMatch(s, word, 0).Some? ==>
              var i := FirstMatch(s, word, 0).value;
              i == 0 || !IsDigit(s[i - 1])
  {
    var r := FirstMatch(s, word, 0);
    if r.Some? && r.value > 0 && IsDigit(s[r.value - 1]) {
      DigitRunEndShared(s, r.value - 1);
      assert MatchAt(s, word, r.value - 1);
    }
  }

  /** A match needs the word itself. */
  lemma MatchMentionsWord(s: string, word: string, i: nat)
    requires MatchAt(s, word, i)
    ensures Contains(s, word)
  {
    var j := DigitRunEnd(s, i);
    assert s[j + 1..j + 1 + |word|] == s[j..][1..1 + |word|];
    assert OccursAt(s, word, j + 1);
    ContainsAt(s, word, j + 1);
  }

  /** The `'insertion' in line or 'deletion' in line` guard changes nothing:
      without it each line would contribute the same first matches. */
  lemma GuardIsRedundant(line: string)
    ensures LineContribution(line)
         == LineTotals(CountOrZero(FirstCount(line, "insertion")), CountOrZero(FirstCount(line, "deletion")))
  {
    var ins := FirstMatch(line, "insertion", 0);
    var del := FirstMatch(line, "deletion", 0);
    if ins.Some? {
      MatchMentionsWord(line, "insertion", ins.value);
    }
    if del.Some? {
      MatchMentionsWord(line, "deletion", del.value);
    }
  }

  lemma {:induction false} SumOverAppend<E>(a: seq<E>, b: seq<E>, f: E -> LineTotals)
    ensures SumOver(a + b, f) == Add(SumOver(a, f), SumOver(b, f))
    decreases |b|
  {
    if |b| == 0 {
      assert a + b == a;
    } else {
      var b' := b[..|b| - 1];
      var z := f(b[|b| - 1]);
      assert (a + b)[..|a + b| - 1] == a + b';
      assert (a + b)[|a + b| - 1] == b[|b| - 1];
      SumOverAppend(a, b', f);
      assert SumOver(a + b, f) == Add(SumOver(a + b', f), z);
      assert SumOver(b, f) == Add(SumOver(b', f), z);
    }
  }

  /** Output without a line break is one line. */
  lemma SingleLineTotals(output: string)
    ensures '\n' !in output ==> Totals(Split(output, '\n')) == LineContribution(output)
  {
    if '\n' !in output {
      SplitSingle(output, '\n');
      SumOverSingle(output, LineContribution);
    }
  }

  /** Empty output changes no line. */
  lemma EmptyStat()
    ensures GetLinesChanged("") == Zero
  {
    SplitSingle("", '\n');
    SumOverSingle("", LineContribution);
    assert !Contains("", "insertion") && !Contains("", "deletion");
  }

  lemma SumOverSingle<E>(x: E, f: E -> LineTotals)
    ensures SumOver([x], f) == f(x)
  {
    assert [x][..0] == [];
  }

  /** Totals over consecutive chunks of output add up. */
  lemma TotalsAppend(a: seq<string>, b: seq<string>)
    ensures Totals(a + b) == Add(Totals(a), Totals(b))
  {
    SumOverAppend(a, b, LineContribution);
  }

  predicate MentionsWord(line: string) {
    Contains(line, "insertion") || Contains(line, "deletion")
  }

  function Mentioning(lines: seq<string>): seq<string> {
    if |lines| == 0 then []
    else
      var last := lines[|lines| - 1];
      Mentioning(lines[..|lines| - 1]) + (if MentionsWord(last) then [last] else [])
  }

  /** Only lines mentioning one of the words count: dropping every other
      line leaves both totals unchanged. */
  lemma {:induction false} OnlyMentioningLinesCount(lines: seq<string>)
    ensures Totals(Mentioning(lines)) == Totals(lines)
  {
    if |lines| > 0 {
      var p := lines[..|lines| - 1];
      var last := lines[|lines| - 1];
      OnlyMentioningLinesCount(p);
      var m := Mentioning(p);
      if MentionsWord(last) {
        assert Mentioning(lines) == m + [last];
        SumOverAppend(m, [last], LineContribution);
        assert [last][..0] == [];
      } else {
        assert Mentioning(lines) == m;
        assert LineContribution(last) == Zero;
      }
    }
  }

  /** The all-plural `git log --stat` summary line for `files` files, `ins`
      inserted and `del` deleted lines, with all three parts present. git
      also prints singular words and drops a zero part; those forms are not
      built here. */
  function StatSummary(files: nat, ins: nat, del: nat): string {
    " " + NatToString(files) + " files changed, " + NatToString(ins) + " insertions(+), "
        + NatToString(del) + " deletions(-)"
  }

  lemma {:induction false} DigitRunEndAt(s: string, i: nat, k: nat)
    requires i <= k < |s|
    requires forall j :: i <= j < k ==> IsDigit(s[j])
    requires !IsDigit(s[k])
    ensures DigitRunEnd(s, i) == k
    decreases k - i
  {
    if i < k {
      DigitRunEndAt(s, i + 1, k);
    }
  }

  /** No match starts inside a digit run that the word does not follow. */
  lemma NoMatchInRun(s: string, word: string, lo: nat, hi: nat)
    requires lo <= hi && hi + 1 < |s| && |word| > 0
    requires forall j :: lo <= j < hi ==> IsDigit(s[j])
    requires s[hi] == ' ' && s[hi + 1] != word[0]
    ensures forall k :: lo <= k < hi ==> !MatchAt(s, word, k)
  {
    forall k | lo <= k < hi
      ensures !MatchAt(s, word, k)
    {
      DigitRunEndAt(s, k, hi);
      assert (" " + word)[1] == word[0];
    }
  }

  lemma FirstMatchIs(s: string, word: string, p: nat)
    requires MatchAt(s, word, p)
    requires forall k :: 0 <= k < p ==> !MatchAt(s, word, k)
    ensures FirstMatch(s, word, 0) == Some(p)
  {
  }

  /** The number before the word is read whole. */
  lemma CountAfter(s: string, word: string, p: nat, n: nat)
    requires p + |NatToString(n)| + 1 + |word| <= |s|
    requires s[p..p + |NatToString(n)|] == NatToString(n)
    requires s[p + |NatToString(n)|..p + |NatToString(n)| + 1 + |word|] == " " + word
    requires forall k :: 0 <= k < p ==> !MatchAt(s, word, k)
    ensures FirstCount(s, word) == Some(n)
  {
    var digits := NatToString(n);
    var e := p + |digits|;
    assert forall j :: p <= j < e ==> IsDigit(s[j]) by {
      forall j | p <= j < e ensures IsDigit(s[j]) {
        assert s[j] == s[p..e][j - p];
      }
    }
    assert s[e] == s[e..e + 1 + |word|][0];
    DigitRunEndAt(s, p, e);
    assert s[e..][..1 + |word|] == s[e..e + 1 + |word|];
    assert s[p] == digits[0];
    FirstMatchIs(s, word, p);
    NatToStringValue(n);
  }

  /** Where the parts of a summary line sit: the file count and the text
      after it. */
  lemma FilesLayout(files: nat, ins: nat, del: nat)
    ensures var s := StatSummary(files, ins, del);
            var a := 1 + |NatToString(files)|;
            && a + 16 < |s| && s[0] == ' '
            && (forall j :: 1 <= j < a ==> IsDigit(s[j]))
            && (forall j :: a <= j < a + 16 ==> !IsDigit(s[j]))
            && s[a] == ' ' && s[a + 1] == 'f'
  {
    var f := NatToString(files);
    var head := " " + f + " files changed, ";
    var s := StatSummary(files, ins, del);
    assert s == head + (NatToString(ins) + " insertions(+), " + NatToString(del) + " deletions(-)");
    assert forall j :: 0 <= j < |head| ==> s[j] == head[j];
    assert forall j :: 1 <= j < 1 + |f| ==> head[j] == f[j - 1];
    assert forall j :: 1 + |f| <= j < |head| ==> head[j] == " files changed, "[j - 1 - |f|];
  }

  /** Where the parts of a summary line sit: the insertion count. */
  lemma InsertionsLayout(files: nat, ins: nat, del: nat)
    ensures var s := StatSummary(files, ins, del);
            var p := 1 + |NatToString(files)| + 16;
            var b := p + |NatToString(ins)|;
            && b + 16 < |s|
            && s[p..b] == NatToString(ins)
  {
    var i := NatToString(ins);
    var head := " " + NatToString(files) + " files changed, ";
    var tail := " insertions(+), " + NatToString(del) + " deletions(-)";
    var s := StatSummary(files, ins, del);
    assert s == head + i + tail;
    assert |head| == 1 + |NatToString(files)| + 16;
    assert (head + i + tail)[|head|..|head| + |i|] == i;
  }

  /** Where the parts of a summary line sit: the text after the insertion
      count. */
  lemma InsertionsWordLayout(files: nat, ins: nat, del: nat)
    ensures var s := StatSummary(files, ins, del);
            var b := 1 + |NatToString(files)| + 16 + |NatToString(ins)|;
            && b + 16 < |s|
            && s[b..b + 10] == " " + "insertion"
            && (forall j :: b <= j < b + 16 ==> !IsDigit(s[j]))
  {
    var mid := " insertions(+), ";
    var s := StatSummary(files, ins, del);
    var b := 1 + |NatToString(files)| + 16 + |NatToString(ins)|;
    forall j | 0 <= j < 16 ensures s[b + j] == mid[j] { }
    assert s[b..b + 10] == mid[..10];
    assert mid[..10] == " " + "insertion";
  }

  /** Where the parts of a summary line sit: the deletion count and the
      word after it. */
  lemma DeletionsLayout(files: nat, ins: nat, del: nat)
    ensures var s := StatSummary(files, ins, del);
            var q := 1 + |NatToString(files)| + 16 + |NatToString(ins)| + 16;
            var e := q + |NatToString(del)|;
            && e + 9 <= |s|
            && s[q..e] == NatToString(del)
            && s[e..e + 9] == " " + "deletion"
  {
    var front := " " + NatToString(files) + " files changed, " + NatToString(ins) + " insertions(+), ";
    var d := NatToString(del);
    var tail := " deletions(-)";
    var s := StatSummary(files, ins, del);
    assert s == front + d + tail;
    var q := |front|;
    var e := q + |d|;
    assert s[q..e] == d;
    assert s[e..e + 9] == tail[..9];
    assert tail[..9] == " " + "deletion";
  }

  /** No match before `end`, carried across one more digit run `[lo, hi)`
      whose word is a different one and the non-digits after it. */
  lemma NoMatchThrough(s: string, word: string, lo: nat, hi: nat, end: nat)
    requires lo <= hi < end && hi + 1 < |s| && |word| > 0
    requires forall k :: 0 <= k < lo ==> !MatchAt(s, word, k)
    requires forall j :: lo <= j < hi ==> IsDigit(s[j])
    requires s[hi] == ' ' && s[hi + 1] != word[0]
    requires forall j :: hi <= j < end && j < |s| ==> !IsDigit(s[j])
    ensures forall k :: 0 <= k < end ==> !MatchAt(s, word, k)
  {
    NoMatchInRun(s, word, lo, hi);
  }

  /** A slice equal to a decimal numeral holds only digits. */
  lemma DigitsSlice(s: string, p: nat, b: nat, n: nat)
    requires p <= b <= |s| && s[p..b] == NatToString(n)
    ensures forall j :: p <= j < b ==> IsDigit(s[j])
  {
    forall j | p <= j < b ensures IsDigit(s[j]) {
      assert s[j] == s[p..b][j - p];
    }
  }

  /** Before the insertion count, the only digit run is the file count,
      followed by ` files`. */
  lemma NoMatchBeforeInsertions(files: nat, ins: nat, del: nat, word: string)
    requires |word| > 0 && word[0] != 'f'
    ensures forall k :: 0 <= k < 1 + |NatToString(files)| + 16 ==> !MatchAt(StatSummary(files, ins, del), word, k)
  {
    var s := StatSummary(files, ins, del);
    var a := 1 + |NatToString(files)|;
    FilesLayout(files, ins, del);
    NoMatchThrough(s, word, 1, a, a + 16);
  }

  lemma InsertionsOfSummary(files: nat, ins: nat, del: nat)
    ensures FirstCount(StatSummary(files, ins, del), "insertion") == Some(ins)
  {
    var s := StatSummary(files, ins, del);
    var p := 1 + |NatToString(files)| + 16;
    NoMatchBeforeInsertions(files, ins, del, "insertion");
    InsertionsLayout(files, ins, del);
    InsertionsWordLayout(files, ins, del);
    CountAfter(s, "insertion", p, ins);
  }

  /** Before the deletion count, the digit runs are the file count and the
      insertion count, followed by ` files` and ` insertions`. */
  lemma NoMatchBeforeDeletions(files: nat, ins: nat, del: nat)
    ensures forall k :: 0 <= k < 1 + |NatToString(files)| + 16 + |NatToString(ins)| + 16 ==>
              !MatchAt(StatSummary(files, ins, del), "deletion", k)
  {
    var s := StatSummary(files, ins, del);
    var p := 1 + |NatToString(files)| + 16;
    var b := p + |NatToString(ins)|;
    NoMatchBeforeInsertions(files, ins, del, "deletion");
    InsertionsLayout(files, ins, del);
    DigitsSlice(s, p, b, ins);
    InsertionsWordLayout(files, ins, del);
    assert s[b] == s[b..b + 10][0] && s[b + 1] == s[b..b + 10][1];
    NoMatchThrough(s, "deletion", p, b, b + 16);
  }

  lemma DeletionsOfSummary(files: nat, ins: nat, del: nat)
    ensures FirstCount(StatSummary(files, ins, del), "deletion") == Some(del)
  {
    var q := 1 + |NatToString(files)| + 16 + |NatToString(ins)| + 16;
    NoMatchBeforeDeletions(files, ins, del);
    DeletionsLayout(files, ins, del);
    CountAfter(StatSummary(files, ins, del), "deletion", q, del);
  }

  /** A summary line gives back the counts it was printed from. */
  lemma ReadsStatSummary(files: nat, ins: nat, del: nat)
    ensures LineContribution(StatSummary(files, ins, del)) == LineTotals(ins, del)
  {
    InsertionsOfSummary(files, ins, del);
    DeletionsOfSummary(files, ins, del);
    GuardIsRedundant(StatSummary(files, ins, del));
  }
}

=== FILE: numbers.dfy ===
/** Decimal integers as the analyzer reads them: Python's `int(text)` on
    the output of `wc -l` and on the count column of `uniq -c`, and the
    digit runs the `--stat` summary regex captures. */
module Numbers {
  import opened Base
  import opened Text

  predicate IsDigit(c: char) {
    '0' <= c <= '9'
  }

  predicate AllDigits(s: string) {
    forall i :: 0 <= i < |s| ==> IsDigit(s[i])
  }

  function DigitValue(c: char): nat
    requires IsDigit(c)
  {
    c as int - '0' as int
  }

  function DigitChar(d: nat): (c: char)
    requires d < 10
    ensures IsDigit(c) && DigitValue(c) == d
  {
    ('0' as int + d) as char
  }

  /** The value of a string of decimal digits, most significant first. */
  function DigitsValue(s: string): nat
    requires AllDigits(s)
  {
    if |s| == 0 then 0 else DigitsValue(s[..|s| - 1]) * 10 + DigitValue(s[|s| - 1])
  }

  /** Canonical decimal form of a natural number: no leading zero. */
  function NatToString(n: nat): (s: string)
    ensures |s| > 0 && AllDigits(s)
    ensures s[0] != '0' || n == 0
  {
    if n < 10 then [DigitChar(n)] else NatToString(n / 10) + [DigitChar(n % 10)]
  }

  /** Python's `str(n)` for an integer. */
  function IntToString(n: int): string {
    if n < 0 then "-" + NatToString(-n) else NatToString(n)
  }

  /** Reading back the decimal form of `n` gives `n`. */
  lemma {:induction false} NatToStringValue(n: nat)
    ensures DigitsValue(NatToString(n)) == n
  {
    if n >= 10 {
      var s := NatToString(n);
      assert s[..|s| - 1] == NatToString(n / 10);
      NatToStringValue(n / 10);
    }
  }

  /** A signed decimal literal with no surrounding whitespace: one optional
      `+` or `-`, then a non-empty run of digits. */
  function ReadSigned(t: string): Option<int> {
    var signed := |t| > 0 && (t[0] == '+' || t[0] == '-');
    var body := if signed then t[1..] else t;
    if |body| > 0 && AllDigits(body) then
      var magnitude: int := DigitsValue(body);
      Some(if signed && t[0] == '-' then -magnitude else magnitude)
    else
      None
  }

  /** Python's `int(text)` for base-ten text: surrounding whitespace is
      ignored and the rest must be a signed decimal literal; anything else
      raises `ValueError`. */
  function ParseInt(text: string): (r: Result<int>)
    ensures r.Err? ==> r.failure == NotAnInteger(text)
  {
    match ReadSigned(Strip(text))
    case Some(v) => Ok(v)
    case None => Err(NotAnInteger(text))
  }

  lemma DigitsTrimmed(s: string)
    requires |s| > 0 && AllDigits(s)
    ensures TrimmedEnds(s)
  {
    assert IsDigit(s[0]) && IsDigit(s[|s| - 1]);
  }

  /** The literal reader inverts `str()`. */
  lemma ReadSignedOfString(n: int)
    ensures TrimmedEnds(IntToString(n))
    ensures ReadSigned(IntToString(n)) == Some(n)
  {
    var s := IntToString(n);
    var m: nat := if n < 0 then -n else n;
    var digits := NatToString(m);
    NatToStringValue(m);
    DigitsTrimmed(digits);
    if n < 0 {
      assert s == ['-'] + digits;
      assert s[1..] == digits;
    } else {
      assert s == digits;
      assert IsDigit(s[0]);
    }
  }

  /** `int(str(n))` is `n`, also when `wc -l` or `uniq -c` pad the number
      with whitespace on either side. */
  lemma ParseIntPadded(pad: string, n: int, trail: string)
    requires AllSpace(pad) && AllSpace(trail)
    ensures ParseInt(pad + IntToString(n) + trail) == Ok(n)
  {
    ReadSignedOfString(n);
    StripPadded(pad, IntToString(n), trail);
  }

  /** `int(str(n))` is `n`. */
  lemma ParseIntOfString(n: int)
    ensures ParseInt(IntToString(n)) == Ok(n)
  {
    ReadSignedOfString(n);
    StripTrimmed(IntToString(n));
  }

  /** A non-digit after the optional sign makes the literal unreadable. */
  lemma ReadSignedRejects(t: string, i: nat)
    requires 0 < i < |t| && !IsDigit(t[i])
    ensures ReadSigned(t).None?
  {
    assert t[1..][i - 1] == t[i];
  }

  /** A non-digit after the optional sign makes `int()` fail. */
  lemma ParseIntRejects(text: string, i: nat)
    requires 0 < i < |Strip(text)| && !IsDigit(Strip(text)[i])
    ensures ParseInt(text).Err?
  {
    ReadSignedRejects(Strip(text), i);
  }
}

=== FILE: ranking.dfy ===
/** The most-productive-days list: `sorted(commits_by_date.items(),
    key=lambda x: x[1], reverse=True)[:5]`. Python's sort is stable also
    with `reverse=True`, so days with equal counts keep their first-seen
    order. */
module Ranking {

  /** How many days are listed. */
  const TopCount: nat := 5

  /** Counts never increase along `s`. */
  predicate NonIncreasing<K>(s: seq<(K, int)>) {
    forall i, j :: 0 <= i < j < |s| ==> s[i].1 >= s[j].1
  }

  /** Puts `x` after every entry whose count is at least its own. */
  function Insert<K>(x: (K, int), s: seq<(K, int)>): seq<(K, int)> {
    if |s| == 0 then [x]
    else if s[0].1 >= x.1 then [s[0]] + Insert(x, s[1..])
    else [x] + s
  }

  /** Stable sort by descending count: each entry, in input order, goes
      after all earlier entries with a count at least as large. Ordered by
      descending count, nothing lost, ties in input order: the three
      together pin down Python's stable `sorted(..., reverse=True)`. */
  function SortByCount<K>(items: seq<(K, int)>): (r: seq<(K, int)>)
    ensures |r| == |items|
    ensures NonIncreasing(r)
    ensures multiset(r) == multiset(items)
    ensures forall c :: WithCount(r, c) == WithCount(items, c)
  {
    if |items| == 0 then []
    else
      var p := items[..|items| - 1];
      var x := items[|items| - 1];
      var sp := SortByCount(p);
      InsertLength(x, sp);
      InsertSorted(x, sp);
      InsertPermutes(x, sp);
      assert items == p + [x];
      assert forall c :: WithCount(Insert(x, sp), c) == WithCount(items, c) by {
        forall c
          ensures WithCount(Insert(x, sp), c) == WithCount(items, c)
        {
          InsertStable(x, sp, c);
          WithCountAppend(p, [x], c);
          WithCountSingle(x, c);
        }
      }
      Insert(x, sp)
  }

  /** `[:5]` of the sorted days: at most five days are listed, most commits
      first, each one of the days ranked, and no day left out has more
      commits than a listed one. */
  function TopDays<K>(items: seq<(K, int)>): (r: seq<(K, int)>)
    ensures |r| == if |items| <= TopCount then |items| else TopCount
    ensures NonIncreasing(r)
    ensures forall i :: 0 <= i < |r| ==> r[i] in items
    ensures r == SortByCount(items)[..|r|]
    ensures var rest := SortByCount(items)[|r|..];
            && multiset(r) + multiset(rest) == multiset(items)
            && forall i, j :: 0 <= i < |r| && 0 <= j < |rest| ==> r[i].1 >= rest[j].1
  {
    var sorted := SortByCount(items);
    var k := if |sorted| <= TopCount then |sorted| else TopCount;
    SplitSorted(sorted, items, k);
    sorted[..k]
  }

  /** A prefix of an ordering of `items` and the rest after it. */
  lemma SplitSorted<K>(sorted: seq<(K, int)>, items: seq<(K, int)>, k: nat)
    requires NonIncreasing(sorted) && multiset(sorted) == multiset(items) && k <= |sorted|
    ensures NonIncreasing(sorted[..k])
    ensures forall i :: 0 <= i < k ==> sorted[..k][i] in items
    ensures multiset(sorted[..k]) + multiset(sorted[k..]) == multiset(items)
    ensures forall i, j :: 0 <= i < k && 0 <= j < |sorted| - k ==> sorted[..k][i].1 >= sorted[k..][j].1
  {
    assert sorted == sorted[..k] + sorted[k..];
    forall i | 0 <= i < k
      ensures sorted[..k][i] in items
    {
      assert sorted[..k][i] == sorted[i];
      assert sorted[i] in multiset(sorted);
    }
    forall i, j | 0 <= i < k && 0 <= j < |sorted| - k
      ensures sorted[..k][i].1 >= sorted[k..][j].1
    {
      assert sorted[..k][i] == sorted[i];
      assert sorted[k..][j] == sorted[k + j];
    }
  }

  /** The entries with count `c`, in order. */
  function WithCount<K>(s: seq<(K, int)>, c: int): seq<(K, int)> {
    if |s| == 0 then []
    else (if s[0].1 == c then [s[0]] else []) + WithCount(s[1..], c)
  }

  // ---------------------------------------------------------------------
  // Properties of one insertion

  lemma {:induction false} InsertLength<K>(x: (K, int), s: seq<(K, int)>)
    ensures |Insert(x, s)| == |s| + 1
  {
    if |s| > 0 && s[0].1 >= x.1 {
      InsertLength(x, s[1..]);
    }
  }

  lemma {:induction false} InsertPermutes<K>(x: (K, int), s: seq<(K, int)>)
    ensures multiset(Insert(x, s)) == multiset(s) + multiset{x}
  {
    if |s| > 0 && s[0].1 >= x.1 {
      InsertPermutes(x, s[1..]);
      assert s == [s[0]] + s[1..];
    }
  }

  lemma {:induction false} InsertSorted<K>(x: (K, int), s: seq<(K, int)>)
    requires NonIncreasing(s)
    ensures NonIncreasing(Insert(x, s))
    ensures |Insert(x, s)| > 0 && Insert(x, s)[0].1 == (if |s| > 0 && s[0].1 >= x.1 then s[0].1 else x.1)
  {
    if |s| > 0 && s[0].1 >= x.1 {
      var tail := s[1..];
      InsertSorted(x, tail);
      var r := Insert(x, tail);
      assert forall j :: 0 <= j < |r| ==> r[0].1 >= r[j].1;
    }
  }

  lemma {:induction false} WithCountAppend<K>(a: seq<(K, int)>, b: seq<(K, int)>, c: int)
    ensures WithCount(a + b, c) == WithCount(a, c) + WithCount(b, c)
  {
    if |a| > 0 {
      WithCountAppend(a[1..], b, c);
      assert (a + b)[1..] == a[1..] + b;
    } else {
      assert a + b == b;
    }
  }

  lemma {:induction false} WithCountNone<K>(s: seq<(K, int)>, c: int)
    requires forall j :: 0 <= j < |s| ==> s[j].1 < c
    ensures WithCount(s, c) == []
  {
    if |s| > 0 {
      WithCountNone(s[1..], c);
    }
  }

  /** The inserted entry goes after the entries with its count. */
  lemma {:induction false} InsertStable<K>(x: (K, int), s: seq<(K, int)>, c: int)
    requires NonIncreasing(s)
    ensures WithCount(Insert(x, s), c) == WithCount(s, c) + (if x.1 == c then [x] else [])
  {
    if |s| == 0 {
      assert Insert(x, s) == [x];
    } else if s[0].1 >= x.1 {
      InsertStable(x, s[1..], c);
      assert WithCount(s, c) == (if s[0].1 == c then [s[0]] else []) + WithCount(s[1..], c);
    } else {
      assert Insert(x, s) == [x] + s;
      if x.1 == c {
        WithCountNone(s, c);
      }
    }
  }

  // ---------------------------------------------------------------------
  // Properties of the sort and of the top-five list

  lemma WithCountSingle<K>(x: (K, int), c: int)
    ensures WithCount([x], c) == if x.1 == c then [x] else []
  {
    assert [x][1..] == [];
  }

  /** The listed entries with count `c` are the first ones with that
      count, in input order. */
  lemma TopTies<K>(items: seq<(K, int)>, c: int)
    ensures WithCount(TopDays(items), c) <= WithCount(items, c)
  {
    var sorted := SortByCount(items);
    var r := TopDays(items);
    assert sorted == r + sorted[|r|..];
    WithCountAppend(r, sorted[|r|..], c);
  }

  /** Days with equal counts keep their first-seen order. */
  lemma TiesKeepOrder()
    ensures TopDays([("06-01", 1), ("06-02", 3), ("06-03", 3)]) == [("06-02", 3), ("06-03", 3), ("06-01", 1)]
  {
    var items := [("06-01", 1), ("06-02", 3), ("06-03", 3)];
    assert items[..2] == [("06-01", 1), ("06-02", 3)];
    assert items[..2][..1] == [("06-01", 1)];
    assert SortByCount(items[..2][..1]) == [("06-01", 1)];
    assert SortByCount(items[..2]) == [("06-02", 3), ("06-01", 1)];
    var x := ("06-03", 3);
    assert Insert(x, [("06-01", 1)]) == [x, ("06-01", 1)];
    assert [("06-02", 3), ("06-01", 1)][1..] == [("06-01", 1)];
    assert Insert(x, [("06-02", 3), ("06-01", 1)]) == [("06-02", 3), x, ("06-01", 1)];
    assert SortByCount(items) == [("06-02", 3), x, ("06-01", 1)];
  }
}

=== FILE: rates.dfy ===
/** The rate and ratio expressions of `generate_report`, in exact real
    arithmetic: daily rates, the percentage change, the multiplier and the
    per-tier percentages. */
module Rates {
  import opened Base

  datatype Comparison = Comparison(
    beforeDaily: real,
    afterDaily: real,
    /** `productivity_increase`: 0 unless the before rate is positive. */
    increase: real,
    /** `after_daily / before_daily`, printed only when the before rate is
        positive ("N/A" otherwise). */
    multiplier: Option<real>)

  /** `commits / self.analysis_days`; a zero length raises
      `ZeroDivisionError`. Over the window the rate adds back up to the
      commit count. */
  function DailyRate(commits: int, days: int): (r: Result<real>)
    ensures r.Err? <==> days == 0
    ensures r.Ok? ==> r.value * days as real == commits as real
  {
    if days == 0 then Err(DivisionByZero) else Ok(commits as real / days as real)
  }

  /** The core results: both daily rates, the guarded percentage change and
      the guarded multiplier. A zero-length window is the only failure. */
  function Compare(beforeCommits: int, afterCommits: int, days: int): (r: Result<Comparison>)
    ensures r.Err? <==> days == 0
    ensures r.Err? ==> r.failure == DivisionByZero
    ensures r.Ok? ==> (r.value.beforeDaily * days as real == beforeCommits as real
                       && r.value.afterDaily * days as real == afterCommits as real)
  {
    match (DailyRate(beforeCommits, days), DailyRate(afterCommits, days))
    case (Ok(b), Ok(a)) =>
      Ok(Comparison(b, a,
                    if b > 0.0 then (a - b) / b * 100.0 else 0.0,
                    if b > 0.0 then Some(a / b) else None))
    case _ => Err(DivisionByZero)
  }

  /** `count / max(commits, 1) * 100`: a tier's share of the commits, in
      percent. Without commits the divisor is 1, never 0. */
  function Share(count: int, commits: int): (r: real)
    ensures r * (if commits > 1 then commits else 1) as real == count as real * 100.0
  {
    count as real / (if commits > 1 then commits else 1) as real * 100.0
  }

  // ---------------------------------------------------------------------
  // Properties

  /** The multiplier exists exactly when the before rate is positive, and
      then the percentage change is the multiplier less one, in percent.
      Otherwise the change is reported as 0. */
  lemma IncreaseIsMultiplierMinusOne(beforeCommits: int, afterCommits: int, days: int)
    requires Compare(beforeCommits, afterCommits, days).Ok?
    ensures var c := Compare(beforeCommits, afterCommits, days).value;
            && (c.multiplier.Some? <==> c.beforeDaily > 0.0)
            && (c.multiplier.Some? ==> c.increase == (c.multiplier.value - 1.0) * 100.0)
            && (c.multiplier.None? ==> c.increase == 0.0)
  {
    var c := Compare(beforeCommits, afterCommits, days).value;
    if c.beforeDaily > 0.0 {
      var b := c.beforeDaily;
      var a := c.afterDaily;
      var q := a / b;
      assert q * b == a;
      assert a - b == (q - 1.0) * b;
      DivideProduct(a - b, q - 1.0, b);
    }
  }

  lemma DivideProduct(x: real, y: real, d: real)
    requires d != 0.0 && x == y * d
    ensures x / d == y
  {
  }

  /** With a positive window length the ratio does not depend on it: the
      multiplier is the ratio of the commit counts, and it exists exactly
      when some commit preceded the adoption date. */
  lemma MultiplierIsCommitRatio(beforeCommits: int, afterCommits: int, days: int)
    requires days > 0
    ensures var c := Compare(beforeCommits, afterCommits, days).value;
            && (c.multiplier.Some? <==> beforeCommits > 0)
            && (c.multiplier.Some? ==> c.multiplier.value == afterCommits as real / beforeCommits as real)
  {
    var b := beforeCommits as real / days as real;
    var a := afterCommits as real / days as real;
    if beforeCommits > 0 {
      assert b > 0.0;
      assert a / b == afterCommits as real / beforeCommits as real;
    } else {
      assert b <= 0.0;
    }
  }

  /** The change is positive exactly when the after rate is higher. */
  lemma IncreaseSign(beforeCommits: int, afterCommits: int, days: int)
    requires days > 0 && beforeCommits > 0
    ensures var c := Compare(beforeCommits, afterCommits, days).value;
            (c.increase > 0.0 <==> afterCommits > beforeCommits)
            && (c.increase == 0.0 <==> afterCommits == beforeCommits)
  {
    var b := beforeCommits as real / days as real;
    var a := afterCommits as real / days as real;
    assert b > 0.0;
    assert a > b <==> afterCommits > beforeCommits;
    assert (a - b) / b * 100.0 > 0.0 <==> a - b > 0.0;
  }

  /** 10 commits before and 25 after, over 30-day windows: +150%, 2.5x. */
  lemma TenToTwentyFive()
    ensures Compare(10, 25, 30) == Ok(Comparison(1.0 / 3.0, 5.0 / 6.0, 150.0, Some(2.5)))
  {
    var b: real := 10.0 / 30.0;
    var a: real := 25.0 / 30.0;
    assert b == 1.0 / 3.0 && a == 5.0 / 6.0;
    assert (a - b) / b == 1.5;
    assert a / b == 2.5;
  }

  /** When the tier counts add up to the commit count, the three shares add
      up to 100 percent. */
  lemma SharesSumToHundred(high: nat, medium: nat, low: nat, commits: int)
    requires commits > 0 && high + medium + low == commits
    ensures Share(high, commits) + Share(medium, commits) + Share(low, commits) == 100.0
  {
    assert (if commits > 1 then commits else 1) == commits;
    ScaledParts(Share(high, commits), Share(medium, commits), Share(low, commits),
                high as real, medium as real, low as real, commits as real);
  }

  /** Three parts scaled by the same positive whole add up to the whole's
      hundred percent. */
  lemma ScaledParts(x: real, y: real, z: real, a: real, b: real, c: real, n: real)
    requires n > 0.0 && a + b + c == n
    requires x * n == a * 100.0 && y * n == b * 100.0 && z * n == c * 100.0
    ensures x + y + z == 100.0
  {
    var w := x + y + z;
    assert w * n == x * n + y * n + z * n;
    assert x * n + y * n + z * n == a * 100.0 + b * 100.0 + c * 100.0;
    assert a * 100.0 + b * 100.0 + c * 100.0 == 100.0 * n;
    CancelFactor(w, 100.0, n);
  }

  lemma CancelFactor(w: real, v: real, n: real)
    requires n != 0.0 && w * n == v * n
    ensures w == v
  {
    DivideProduct(w * n, w, n);
    DivideProduct(v * n, v, n);
  }
}

=== FILE: repoinfo.dfy ===
/** `get_repo_info`: the repository name shown in the report header, taken
    from the `remote.origin.url` setting. */
module RepoInfo {
  import opened Text
  import opened GitOutput

  const LocalRepository := "Local repository"
  const GitHubHost := "github.com"
  const GitSuffix := ".git"

  /** The text after the last `/`: `url.split("/")[-1]`. */
  function LastSegment(url: string): (r: string)
    ensures '/' !in r
  {
    var parts := Split(url, '/');
    SplitPiecesFree(url, '/');
    parts[|parts| - 1]
  }

  /** Python's `s.replace(pat, "")`: scanning from the left, every
      non-overlapping occurrence of `pat` is dropped. */
  function RemoveAll(s: string, pat: string): (r: string)
    requires |pat| > 0
    ensures |r| <= |s|
    decreases |s|
  {
    if |s| == 0 then ""
    else if IsPrefix(pat, s) then RemoveAll(s[|pat|..], pat)
    else [s[0]] + RemoveAll(s[1..], pat)
  }

  /** Removing text never introduces a character. */
  lemma {:induction false} RemoveAllAbsent(s: string, pat: string, x: char)
    requires |pat| > 0 && x !in s
    ensures x !in RemoveAll(s, pat)
    decreases |s|
  {
    if |s| > 0 {
      if IsPrefix(pat, s) {
        RemoveAllAbsent(s[|pat|..], pat, x);
      } else {
        RemoveAllAbsent(s[1..], pat, x);
      }
    }
  }

  predicate EndsWith(s: string, suffix: string) {
    |suffix| <= |s| && s[|s| - |suffix|..] == suffix
  }

  /** Python's `s.removesuffix(suffix)`. */
  function RemoveSuffix(s: string, suffix: string): (r: string)
    ensures EndsWith(s, suffix) ==> r + suffix == s
    ensures !EndsWith(s, suffix) ==> r == s
  {
    if EndsWith(s, suffix) then s[..|s| - |suffix|] else s
  }

  /** The name as the code computes it: the last path segment of a GitHub
      remote with every `.git` removed from it, wherever it occurs. */
  function RepoNameAsWritten(remote: string): (r: string)
    ensures Contains(remote, GitHubHost) ==> '/' !in r
  {
    if Contains(remote, GitHubHost) then
      RemoveAllAbsent(LastSegment(remote), GitSuffix, '/');
      RemoveAll(LastSegment(remote), GitSuffix)
    else LocalRepository
  }

  /** The name as intended: the last path segment of a GitHub remote with
      a trailing `.git` removed. */
  function RepoName(remote: string): (r: string)
    ensures Contains(remote, GitHubHost) ==> '/' !in r && IsPrefix(r, LastSegment(remote))
  {
    if Contains(remote, GitHubHost) then RemoveSuffix(LastSegment(remote), GitSuffix)
    else LocalRepository
  }

  // ---------------------------------------------------------------------
  // Reading a remote URL

  lemma ContainsExtended(s: string, t: string, sub: string)
    requires Contains(s, sub)
    ensures Contains(s + t, sub)
  {
    ContainsIff(s, sub);
    var i: nat :| OccursAt(s, sub, i);
    assert (s + t)[i..i + |sub|] == s[i..i + |sub|];
    ContainsAt(s + t, sub, i);
  }

  /** The segment after the last `/` of `<prefix>/<segment>`. */
  lemma SegmentAfterSlash(prefix: string, segment: string)
    requires '/' !in segment
    ensures LastSegment(prefix + "/" + segment) == segment
  {
    assert prefix + "/" + segment == prefix + ['/'] + segment;
    LastPiece(prefix, segment, '/');
  }

  /** A remote `<prefix>/<segment>` whose prefix names GitHub. */
  lemma GitHubRemote(prefix: string, segment: string)
    requires Contains(prefix, GitHubHost) && '/' !in segment
    ensures Contains(prefix + "/" + segment, GitHubHost)
    ensures LastSegment(prefix + "/" + segment) == segment
  {
    assert prefix + "/" + segment == prefix + ("/" + segment);
    ContainsExtended(prefix, "/" + segment, GitHubHost);
    SegmentAfterSlash(prefix, segment);
  }

  /** A GitHub remote `<prefix>/<name>.git` is reported as `name`, and so
      is one written without the suffix. */
  lemma ReadsRepoName(prefix: string, name: string)
    requires Contains(prefix, GitHubHost) && '/' !in name
    ensures RepoName(prefix + "/" + name + GitSuffix) == name
    ensures !EndsWith(name, GitSuffix) ==> RepoName(prefix + "/" + name) == name
  {
    assert prefix + "/" + name + GitSuffix == prefix + "/" + (name + GitSuffix);
    GitHubRemote(prefix, name + GitSuffix);
    assert (name + GitSuffix)[..|name|] == name;
    GitHubRemote(prefix, name);
  }

  /** Any remote that does not mention GitHub, including the empty text of
      a failed `git config`, is a local repository. */
  lemma NoGitHubRemote(remote: string, e: string)
    ensures !Contains(remote, GitHubHost) ==> RepoName(remote) == LocalRepository
    ensures RepoName(Captured(Failed(e))) == LocalRepository
    ensures !Contains(remote, GitHubHost) ==> RepoNameAsWritten(remote) == LocalRepository
    ensures RepoNameAsWritten(Captured(Failed(e))) == LocalRepository
  {
    assert !IsPrefix(GitHubHost, "");
  }

  // ---------------------------------------------------------------------
  // Removing every occurrence

  lemma RemoveAllStep(s: string, pat: string)
    requires |pat| > 0 && |s| > 0 && !IsPrefix(pat, s)
    ensures RemoveAll(s, pat) == [s[0]] + RemoveAll(s[1..], pat)
  {
  }

  lemma RemoveAllMatch(s: string, pat: string)
    requires |pat| > 0
    ensures RemoveAll(pat + s, pat) == RemoveAll(s, pat)
  {
    assert (pat + s)[..|pat|] == pat;
    assert (pat + s)[|pat|..] == s;
  }

  /** Without an occurrence of `pat`, `replace` returns the text as is. */
  lemma {:induction false} RemoveAllNoOccurrence(s: string, pat: string)
    requires |pat| > 0 && !Contains(s, pat)
    ensures RemoveAll(s, pat) == s
    decreases |s|
  {
    if |s| > 0 {
      RemoveAllStep(s, pat);
      RemoveAllNoOccurrence(s[1..], pat);
      assert [s[0]] + s[1..] == s;
    }
  }

  /** Python's description of `replace`, independent of the scan: the text
      before the leftmost occurrence is kept, that occurrence is dropped,
      and replacing resumes right after it. `RemoveAllNoOccurrence` is the
      other half of that description. */
  lemma {:induction false} RemoveAllLeftmost(s: string, pat: string, i: nat)
    requires |pat| > 0 && OccursAt(s, pat, i)
    requires forall j: nat :: j < i ==> !OccursAt(s, pat, j)
    ensures RemoveAll(s, pat) == s[..i] + RemoveAll(s[i + |pat|..], pat)
    decreases i
  {
    if i == 0 {
      assert IsPrefix(pat, s);
      assert s[..0] + RemoveAll(s[|pat|..], pat) == RemoveAll(s[|pat|..], pat);
    } else {
      assert !IsPrefix(pat, s) by { assert !OccursAt(s, pat, 0); }
      RemoveAllStep(s, pat);
      var t := s[1..];
      LeftmostInTail(s, pat, i);
      RemoveAllLeftmost(t, pat, i - 1);
      assert t[i - 1 + |pat|..] == s[i + |pat|..];
      ConsAssoc(s[0], t[..i - 1], RemoveAll(s[i + |pat|..], pat));
      assert s[..i] == [s[0]] + t[..i - 1];
    }
  }

  /** A leftmost occurrence past the first character is, one index
      earlier, the leftmost occurrence in the rest. */
  lemma LeftmostInTail(s: string, pat: string, i: nat)
    requires 0 < i && OccursAt(s, pat, i)
    requires forall j: nat :: j < i ==> !OccursAt(s, pat, j)
    ensures OccursAt(s[1..], pat, i - 1)
    ensures forall j: nat :: j < i - 1 ==> !OccursAt(s[1..], pat, j)
  {
    var t := s[1..];
    assert t[i - 1..i - 1 + |pat|] == s[i..i + |pat|];
    forall j: nat | j < i - 1
      ensures !OccursAt(t, pat, j)
    {
      assert !OccursAt(s, pat, j + 1);
      if j + |pat| <= |t| {
        assert t[j..j + |pat|] == s[j + 1..j + 1 + |pat|];
      }
    }
  }

  lemma ConsAssoc(x: char, a: string, b: string)
    ensures [x] + (a + b) == ([x] + a) + b
  {
  }

  /** Text that cannot start an occurrence passes through unchanged. */
  lemma {:induction false} RemoveAllPlain(a: string, s: string, pat: string)
    requires |pat| > 0 && pat[0] !in a
    ensures RemoveAll(a + s, pat) == a + RemoveAll(s, pat)
    decreases |a|
  {
    if |a| > 0 {
      assert (a + s)[0] == a[0];
      RemoveAllStep(a + s, pat);
      assert (a + s)[1..] == a[1..] + s;
      RemoveAllPlain(a[1..], s, pat);
    } else {
      assert a + s == s;
    }
  }

  /** Before a final `.git`, a name without `.git` in it loses only the
      suffix, because no occurrence can straddle the boundary. */
  lemma {:induction false} RemoveAllBeforeSuffix(name: string)
    requires !Contains(name, GitSuffix)
    ensures RemoveAll(name + GitSuffix, GitSuffix) == name
    decreases |name|
  {
    var s := name + GitSuffix;
    if |name| == 0 {
      assert s == GitSuffix + "";
      RemoveAllMatch("", GitSuffix);
    } else {
      if |name| >= |GitSuffix| {
        assert s[..|GitSuffix|] == name[..|GitSuffix|];
        assert !IsPrefix(GitSuffix, name);
      } else {
        assert s[|name|] == '.';
        assert GitSuffix[|name|] != '.';
        assert s[..|GitSuffix|][|name|] == s[|name|];
      }
      RemoveAllStep(s, GitSuffix);
      assert s[1..] == name[1..] + GitSuffix;
      RemoveAllBeforeSuffix(name[1..]);
    }
  }

  /** For ordinary names the code and the intended reading agree. */
  lemma AsWrittenAgrees(prefix: string, name: string)
    requires Contains(prefix, GitHubHost) && '/' !in name && !Contains(name, GitSuffix)
    ensures RepoNameAsWritten(prefix + "/" + name + GitSuffix) == name
  {
    assert prefix + "/" + name + GitSuffix == prefix + "/" + (name + GitSuffix);
    GitHubRemote(prefix, name + GitSuffix);
    RemoveAllBeforeSuffix(name);
  }

  /** A character followed by text that cannot start an occurrence, then
      one occurrence: only the occurrence goes. */
  lemma RemoveAllLead(x: char, c: string, pat: string)
    requires |pat| > 1 && pat[0] !in c && |c| > 0 && c[0] != pat[1]
    ensures RemoveAll([x] + c + pat, pat) == [x] + c
  {
    var s := [x] + (c + pat);
    assert s[..|pat|][1] == c[0];
    RemoveAllStep(s, pat);
    assert s[1..] == c + pat;
    RemoveAllPlain(c, pat, pat);
    RemoveAllSelf(pat);
    assert [x] + c + pat == s;
  }

  /** The pattern alone vanishes. */
  lemma RemoveAllSelf(pat: string)
    requires |pat| > 0
    ensures RemoveAll(pat, pat) == ""
  {
    assert pat[..|pat|] == pat;
  }

  /** `.<c>.git` keeps its first dot when `c` cannot complete `.git`. */
  lemma RemoveAllDotted(c: string)
    requires '.' !in c && |c| > 0 && c[0] != 'g'
    ensures RemoveAll("." + c + GitSuffix, GitSuffix) == "." + c
  {
    RemoveAllLead('.', c, GitSuffix);
  }

  /** The first occurrence is dropped and scanning resumes after it. */
  lemma RemoveAllFirst(a: string, s: string, pat: string)
    requires |pat| > 0 && pat[0] !in a
    ensures RemoveAll(a + (pat + s), pat) == a + RemoveAll(s, pat)
  {
    RemoveAllPlain(a, pat + s, pat);
    RemoveAllMatch(s, pat);
  }

  /** `<a>.git<b>.<c>.git` loses both occurrences of `.git`. */
  lemma RemoveAllTwice(a: string, b: string, c: string)
    requires '.' !in a && '.' !in b && '.' !in c
    requires |c| > 0 && c[0] != 'g'
    ensures RemoveAll(a + GitSuffix + b + "." + c + GitSuffix, GitSuffix) == a + b + "." + c
  {
    var tail := "." + c + GitSuffix;
    var whole := a + GitSuffix + b + "." + c + GitSuffix;
    var rest := b + tail;
    assert whole == a + (GitSuffix + rest);
    var kept := "." + c;
    assert RemoveAll(rest, GitSuffix) == b + kept by {
      RemoveAllPlain(b, tail, GitSuffix);
      RemoveAllDotted(c);
    }
    RemoveAllFirst(a, rest, GitSuffix);
    assert a + (b + kept) == a + b + "." + c;
  }

  /** A GitHub Pages repository `<user>.github.io` keeps `.github.io` in
      its name; the code also strips the `.git` inside `github` and reports
      a name that does not exist. */
  lemma {:induction false} PagesRepoMangled(prefix: string, user: string)
    requires Contains(prefix, GitHubHost) && '/' !in user && '.' !in user
    ensures RepoNameAsWritten(prefix + "/" + user + ".github.io" + GitSuffix) == user + "hub.io"
    ensures RepoName(prefix + "/" + user + ".github.io" + GitSuffix) == user + ".github.io"
  {
    var segment := user + ".github.io" + GitSuffix;
    assert prefix + "/" + user + ".github.io" + GitSuffix == prefix + "/" + segment;
    GitHubRemote(prefix, segment);
    assert ".github.io" == GitSuffix + "hub" + "." + "io";
    assert segment == user + GitSuffix + "hub" + "." + "io" + GitSuffix;
    RemoveAllTwice(user, "hub", "io");
    assert user + "hub" + "." + "io" == user + "hub.io";
    assert segment[..|segment| - |GitSuffix|] == user + ".github.io";
  }
}

=== FILE: report.dfy ===
/** The figures `generate_report` derives from the parsed git output, put
    together the way the report computes them. */
module Report {
  import opened Base
  import opened Text
  import opened Numbers
  import opened GitOutput
  import opened CommitLog
  import opened Complexity
  import opened Ranking
  import opened Rates
  import LineStats
  import FileChanges

  /** "CORE RESULTS": both commit counts, then the comparison. Failures
      surface in evaluation order: the before count's `int()`, the after
      count's, then the division by the window length. */
  function CoreResults(before: Outcome, after: Outcome, days: int): (r: Result<Comparison>)
    ensures r.Ok? <==> CommitCount(before).Ok? && CommitCount(after).Ok? && days != 0
    ensures CommitCount(before).Err? ==> r == Err(CommitCount(before).failure)
    ensures CommitCount(before).Ok? && CommitCount(after).Err? ==> r == Err(CommitCount(after).failure)
    ensures CommitCount(before).Ok? && CommitCount(after).Ok? && days == 0 ==> r == Err(DivisionByZero)
    ensures r.Ok? ==> r == Compare(CommitCount(before).value, CommitCount(after).value, days)
  {
    match CommitCount(before)
    case Err(f) => Err(f)
    case Ok(b) =>
      match CommitCount(after)
      case Err(f) => Err(f)
      case Ok(a) => Compare(b, a, days)
  }

  /** Counts printed by `wc -l` give a multiplier equal to their ratio,
      present exactly when the before window had a commit; a failed
      command counts as no commits. */
  lemma CoreResultsOfLineCounts(pad: string, before: nat, trail: string, after: Outcome, afterCount: nat, days: int)
    requires AllSpace(pad) && AllSpace(trail) && days > 0
    requires CommitCount(after) == Ok(afterCount)
    ensures var r := CoreResults(Exited(pad + IntToString(before) + trail), after, days);
            && r.Ok?
            && (r.value.multiplier.Some? <==> before > 0)
            && (before > 0 ==> r.value.multiplier.value == afterCount as real / before as real)
  {
    ReadsLineCount(pad, before, trail);
    MultiplierIsCommitRatio(before, afterCount, days);
  }

  /** `get_commit_details` on the outcome of its `git log` command: the
      log is parsed after `run_git_command` has stripped it. */
  function CommitDetailsOf(o: Outcome): (d: CommitDetails)
    ensures Silent(o) ==> d == Empty
  {
    if Silent(o) then SilentCapturesNothing(o); EmptyLog(); GetCommitDetails(Captured(o))
    else GetCommitDetails(Captured(o))
  }

  /** `get_lines_changed` on the outcome of its `git log --stat` command. */
  function LinesChangedOf(o: Outcome): (t: LineStats.LineTotals)
    ensures Silent(o) ==> t == LineStats.Zero
  {
    if Silent(o) then SilentCapturesNothing(o); LineStats.EmptyStat(); LineStats.GetLinesChanged(Captured(o))
    else LineStats.GetLinesChanged(Captured(o))
  }

  /** `get_file_changes` on the outcome of its pipeline. */
  function FileChangesOf(o: Outcome): (r: Result<seq<(string, int)>>)
    ensures Silent(o) ==> r == Ok([])
  {
    if Silent(o) then SilentCapturesNothing(o); FileChanges.EmptyListing(); FileChanges.GetFileChanges(Captured(o))
    else FileChanges.GetFileChanges(Captured(o))
  }

  /** "MOST PRODUCTIVE DAYS": the five busiest dates of one window's log. */
  function MostActiveDays(o: Outcome): (r: seq<(string, int)>)
    ensures |r| <= TopCount
    ensures NonIncreasing(r)
  {
    TopDays(CommitDetailsOf(o).byDate)
  }

  /** Every listed date comes with its number of `date|subject` lines, at
      least one, and is listed once. */
  lemma MostActiveDaysCounts(o: Outcome)
    ensures var lines := Split(Captured(o), '\n');
            forall i :: 0 <= i < |MostActiveDays(o)| ==>
              && MostActiveDays(o)[i].0 in Dates(lines)
              && MostActiveDays(o)[i].1 == CountDate(lines, MostActiveDays(o)[i].0) >= 1
  {
    var lines := Split(Captured(o), '\n');
    var byDate := ParseLines(lines).byDate;
    var r := MostActiveDays(o);
    assert r == TopDays(byDate);
    forall i | 0 <= i < |r|
      ensures r[i].0 in Dates(lines)
      ensures r[i].1 == CountDate(lines, r[i].0) >= 1
    {
      StoredPair(lines, r[i].0, r[i].1);
    }
  }

  /** Dates with equal counts are listed in the order of their first
      commit line in the log. */
  lemma MostActiveDaysTies(o: Outcome, c: int)
    ensures var byDate := CommitDetailsOf(o).byDate;
            WithCount(MostActiveDays(o), c) <= WithCount(byDate, c)
  {
    TopTies(CommitDetailsOf(o).byDate, c);
  }

  /** The complexity percentages divide by the commit count of a separate
      `git log | wc -l`; they add up to 100 when that count matches the
      number of parsed messages. */
  lemma ComplexitySharesSum(o: Outcome, commits: int)
    requires commits == |CommitDetailsOf(o).messages| > 0
    ensures var c := Analyze(CommitDetailsOf(o).messages);
            Share(c.high, commits) + Share(c.medium, commits) + Share(c.low, commits) == 100.0
  {
    var c := Analyze(CommitDetailsOf(o).messages);
    SharesSumToHundred(c.high, c.medium, c.low, commits);
  }
}

=== FILE: text.dfy ===
/** The Python string primitives the analyzer relies on: `in` on strings,
    `str.lower()`, `str.strip()`, `str.split(sep)`, `str.split()` and
    `' '.join(...)`, each with the property that pins its meaning down. */
module Text {

  /** Python's `str.isspace()`: the characters `str.strip()` and `str.split()`
      treat as whitespace. */
  predicate IsSpace(c: char) {
    || ('\t' <= c <= '\r')
    || ('\U{1C}' <= c <= '\U{1F}')
    || c == ' ' || c == '\U{85}' || c == '\U{A0}' || c == '\U{1680}'
    || ('\U{2000}' <= c <= '\U{200A}')
    || c == '\U{2028}' || c == '\U{2029}' || c == '\U{202F}' || c == '\U{205F}'
    || c == '\U{3000}'
  }

  predicate AllSpace(s: string) {
    forall i :: 0 <= i < |s| ==> IsSpace(s[i])
  }

  predicate NoSpace(s: string) {
    forall i :: 0 <= i < |s| ==> !IsSpace(s[i])
  }

  /** Neither end of `s` is whitespace (vacuous for the empty string). */
  predicate TrimmedEnds(s: string) {
    |s| == 0 || (!IsSpace(s[0]) && !IsSpace(s[|s| - 1]))
  }

  // ---------------------------------------------------------------------
  // Lower-casing

  function LowerChar(c: char): char {
    if 'A' <= c <= 'Z' then (c as int + 32) as char else c
  }

  /** `str.lower()` restricted to the letters A-Z. */
  function Lower(s: string): (r: string)
    ensures |r| == |s|
    ensures forall i :: 0 <= i < |s| ==> r[i] == LowerChar(s[i])
  {
    if |s| == 0 then "" else [LowerChar(s[0])] + Lower(s[1..])
  }

  // ---------------------------------------------------------------------
  // Substring search: Python's `sub in s`

  predicate IsPrefix(p: string, s: string) {
    |p| <= |s| && s[..|p|] == p
  }

  /** `sub` occurs in `s` starting at index `i`. */
  ghost predicate OccursAt(s: string, sub: string, i: nat) {
    i + |sub| <= |s| && s[i..i + |sub|] == sub
  }

  predicate Contains(s: string, sub: string)
    decreases |s|
  {
    IsPrefix(sub, s) || (|s| > 0 && Contains(s[1..], sub))
  }

  /** `Contains` is exactly "occurs at some index". */
  lemma {:induction false} ContainsIff(s: string, sub: string)
    ensures Contains(s, sub) <==> exists i: nat :: OccursAt(s, sub, i)
    decreases |s|
  {
    if IsPrefix(sub, s) {
      assert OccursAt(s, sub, 0);
    } else if |s| > 0 {
      ContainsIff(s[1..], sub);
      forall i: nat | i > 0 && i + |sub| <= |s|
        ensures OccursAt(s, sub, i) == OccursAt(s[1..], sub, i - 1)
      {
        assert s[1..][i - 1..i - 1 + |sub|] == s[i..i + |sub|];
      }
      if Contains(s[1..], sub) {
        var i: nat :| OccursAt(s[1..], sub, i);
        assert OccursAt(s, sub, i + 1);
      }
      assert !OccursAt(s, sub, 0);
    } else {
      assert |sub| > 0;
    }
  }

  /** A witness occurrence establishes `Contains`. */
  lemma ContainsAt(s: string, sub: string, i: nat)
    requires OccursAt(s, sub, i)
    ensures Contains(s, sub)
  {
    ContainsIff(s, sub);
  }

  // ---------------------------------------------------------------------
  // str.strip()

  function TrimStart(s: string): (r: string)
    ensures |r| <= |s| && r == s[|s| - |r|..]
    ensures AllSpace(s[..|s| - |r|])
    ensures |r| == 0 || !IsSpace(r[0])
    decreases |s|
  {
    if |s| > 0 && IsSpace(s[0]) then TrimStart(s[1..]) else s
  }

  function TrimEnd(s: string): (r: string)
    ensures |r| <= |s| && r == s[..|r|]
    ensures AllSpace(s[|r|..])
    ensures |r| == 0 || !IsSpace(r[|r| - 1])
    decreases |s|
  {
    if |s| > 0 && IsSpace(s[|s| - 1]) then TrimEnd(s[..|s| - 1]) else s
  }

  /** Python's `s.strip()`: the infix `s[i..j]` left after removing every
      leading and trailing whitespace character. */
  function Strip(s: string): (r: string)
    ensures exists i :: OccursStripped(s, r, i)
    ensures TrimmedEnds(r)
  {
    var t := TrimStart(s);
    var i := |s| - |t|;
    TrimBoth(s);
    assert OccursStripped(s, TrimEnd(t), i);
    TrimEnd(t)
  }

  /** `r` is `s[i..]` cut short, with only whitespace around it. */
  ghost predicate OccursStripped(s: string, r: string, i: int) {
    0 <= i <= |s| - |r| && r == s[i..i + |r|] && AllSpace(s[..i]) && AllSpace(s[i + |r|..])
  }

  lemma TrimBoth(s: string)
    ensures OccursStripped(s, TrimEnd(TrimStart(s)), |s| - |TrimStart(s)|)
  {
    var t := TrimStart(s);
    StrippedSlices(s, t, TrimEnd(t), |s| - |t|);
  }

  lemma StrippedSlices(s: string, t: string, r: string, i: nat)
    requires i <= |s| && t == s[i..] && |r| <= |t| && r == t[..|r|]
    requires AllSpace(s[..i]) && AllSpace(t[|r|..])
    ensures OccursStripped(s, r, i)
  {
    assert s[i..i + |r|] == t[..|r|];
    assert s[i + |r|..] == t[|r|..];
  }

  lemma {:induction false} TrimStartPadded(a: string, t: string)
    requires AllSpace(a)
    requires |t| == 0 || !IsSpace(t[0])
    ensures TrimStart(a + t) == t
    decreases |a|
  {
    if |a| > 0 {
      assert (a + t)[1..] == a[1..] + t;
      TrimStartPadded(a[1..], t);
    } else {
      assert a + t == t;
    }
  }

  lemma {:induction false} TrimEndPadded(t: string, b: string)
    requires AllSpace(b)
    requires |t| == 0 || !IsSpace(t[|t| - 1])
    ensures TrimEnd(t + b) == t
    decreases |b|
  {
    if |b| > 0 {
      assert (t + b)[..|t + b| - 1] == t + b[..|b| - 1];
      TrimEndPadded(t, b[..|b| - 1]);
    } else {
      assert t + b == t;
    }
  }

  /** Stripping removes exactly the whitespace padding around a trimmed
      string: `(a + t + b).strip() == t`. */
  lemma StripPadded(a: string, t: string, b: string)
    requires AllSpace(a) && AllSpace(b) && TrimmedEnds(t)
    ensures Strip(a + t + b) == t
  {
    assert a + t + b == a + (t + b);
    if |t| == 0 {
      assert t + b == b;
      TrimStartPadded(a + b, "");
      assert a + b + "" == a + b;
      TrimEndPadded("", "");
    } else {
      TrimStartPadded(a, t + b);
      TrimEndPadded(t, b);
    }
  }

  /** Stripping text that is already trimmed changes nothing. */
  lemma StripTrimmed(t: string)
    requires TrimmedEnds(t)
    ensures Strip(t) == t
  {
    assert "" + t == t && t + "" == t;
    TrimStartPadded("", t);
    TrimEndPadded(t, "");
  }

  // ---------------------------------------------------------------------
  // str.split(sep) and sep.join(parts) for a one-character separator

  /** Index of the first `c` in `s`, or `|s|` when there is none. */
  function FirstIndex(s: string, c: char): (i: nat)
    ensures i <= |s|
    ensures i < |s| ==> s[i] == c
    ensures forall j :: 0 <= j < i ==> s[j] != c
  {
    if |s| == 0 || s[0] == c then 0 else FirstIndex(s[1..], c) + 1
  }

  /** The first occurrence is the index before which `c` is absent. */
  lemma {:induction false} FirstIndexUnique(s: string, c: char, k: nat)
    requires k <= |s| && (k < |s| ==> s[k] == c)
    requires forall j :: 0 <= j < k ==> s[j] != c
    ensures FirstIndex(s, c) == k
  {
    if k > 0 {
      FirstIndexUnique(s[1..], c, k - 1);
    }
  }

  /** Python's `s.split(sep)`: the pieces between occurrences of `sep`. */
  function Split(s: string, sep: char): (parts: seq<string>)
    ensures |parts| >= 1
    decreases |s|
  {
    var i := FirstIndex(s, sep);
    if i == |s| then [s] else [s[..i]] + Split(s[i + 1..], sep)
  }

  /** No piece holds the separator. */
  lemma {:induction false} SplitPiecesFree(s: string, sep: char)
    ensures forall k :: 0 <= k < |Split(s, sep)| ==> sep !in Split(s, sep)[k]
    decreases |s|
  {
    var i := FirstIndex(s, sep);
    if i < |s| {
      SplitPiecesFree(s[i + 1..], sep);
      assert forall j :: 0 <= j < i ==> s[..i][j] != sep;
    } else {
      assert forall j :: 0 <= j < |s| ==> s[j] != sep;
    }
  }

  /** Python's `sep.join(parts)` for a non-empty list. */
  function Join(parts: seq<string>, sep: char): string
    requires |parts| >= 1
  {
    if |parts| == 1 then parts[0] else parts[0] + [sep] + Join(parts[1..], sep)
  }

  lemma JoinCons(x: string, rest: seq<string>, sep: char)
    requires |rest| >= 1
    ensures Join([x] + rest, sep) == x + [sep] + Join(rest, sep)
  {
    assert ([x] + rest)[1..] == rest;
  }

  /** Joining the pieces of a split gives back the original text. */
  lemma {:induction false} JoinSplit(s: string, sep: char)
    ensures Join(Split(s, sep), sep) == s
    decreases |s|
  {
    var i := FirstIndex(s, sep);
    if i < |s| {
      var head, tail := s[..i], s[i + 1..];
      JoinSplit(tail, sep);
      JoinCons(head, Split(tail, sep), sep);
      assert s == head + [sep] + tail;
    }
  }

  /** A text without the separator is a single piece. */
  lemma SplitSingle(s: string, sep: char)
    requires sep !in s
    ensures Split(s, sep) == [s]
  {
    FirstIndexUnique(s, sep, |s|);
  }

  /** Splitting a join of separator-free pieces gives back the pieces. */
  lemma {:induction false} SplitJoin(parts: seq<string>, sep: char)
    requires |parts| >= 1
    requires forall k :: 0 <= k < |parts| ==> sep !in parts[k]
    ensures Split(Join(parts, sep), sep) == parts
    decreases |parts|
  {
    var s := Join(parts, sep);
    if |parts| > 1 {
      var rest := Join(parts[1..], sep);
      assert s == parts[0] + [sep] + rest;
      assert s[..|parts[0]|] == parts[0];
      FirstIndexUnique(s, sep, |parts[0]|);
      assert s[|parts[0]| + 1..] == rest;
      SplitJoin(parts[1..], sep);
    } else {
      SplitSingle(parts[0], sep);
    }
  }

  /** Python's `line.split(sep, 1)` on a line that contains `sep`: the text
      before the first separator and everything after it, later separators
      included. */
  function SplitAtFirst(line: string, sep: char): (r: (string, string))
    requires sep in line
    ensures r.0 + [sep] + r.1 == line
    ensures sep !in r.0
  {
    var i := FirstIndex(line, sep);
    assert i < |line| by {
      var k :| 0 <= k < |line| && line[k] == sep;
      assert i <= k;
    }
    assert line == line[..i] + [sep] + line[i + 1..];
    assert forall j :: 0 <= j < i ==> line[..i][j] != sep;
    (line[..i], line[i + 1..])
  }

  /** The split point is unique: any decomposition whose head is free of the
      separator is the one `SplitAtFirst` returns. */
  lemma SplitAtFirstUnique(line: string, sep: char, head: string, tail: string)
    requires line == head + [sep] + tail
    requires sep !in head
    ensures sep in line && SplitAtFirst(line, sep) == (head, tail)
  {
    assert line[|head|] == sep;
    assert line[..|head|] == head;
    FirstIndexUnique(line, sep, |head|);
    assert line[|head| + 1..] == tail;
  }

  // ---------------------------------------------------------------------
  // str.split() with no argument and ' '.join(words)

  /** Length of the leading run of non-whitespace characters. */
  function WordLength(s: string): (n: nat)
    ensures n <= |s| && NoSpace(s[..n])
    ensures n == |s| || IsSpace(s[n])
  {
    if |s| == 0 || IsSpace(s[0]) then 0 else
      var m := WordLength(s[1..]);
      assert s[..m + 1] == [s[0]] + s[1..][..m];
      m + 1
  }

  /** Python's `s.split()`: the maximal runs of non-whitespace characters. */
  function Words(s: string): (ws: seq<string>)
    ensures ProperWords(ws)
    decreases |s|
  {
    var t := TrimStart(s);
    if |t| == 0 then [] else
      var n := WordLength(t);
      [t[..n]] + Words(t[n..])
  }

  /** Python's `' '.join(words)`. */
  function JoinSpaces(ws: seq<string>): string {
    if |ws| == 0 then ""
    else if |ws| == 1 then ws[0]
    else ws[0] + " " + JoinSpaces(ws[1..])
  }

  /** Every word is non-empty and free of whitespace. */
  predicate ProperWords(ws: seq<string>) {
    |ws| == 0 || (|ws[0]| > 0 && NoSpace(ws[0]) && ProperWords(ws[1..]))
  }

  lemma WordsSkipsSpace(c: char, s: string)
    requires IsSpace(c)
    ensures Words([c] + s) == Words(s)
  {
    assert ([c] + s)[1..] == s;
  }

  lemma {:induction false} WordLengthOfWord(w: string, rest: string)
    requires NoSpace(w)
    requires |rest| == 0 || IsSpace(rest[0])
    ensures WordLength(w + rest) == |w|
    decreases |w|
  {
    if |w| == 0 {
      assert w + rest == rest;
    } else {
      assert (w + rest)[1..] == w[1..] + rest;
      WordLengthOfWord(w[1..], rest);
    }
  }

  /** A word followed by whitespace (or nothing) is the first token. */
  lemma WordsOfWordThen(w: string, rest: string)
    requires |w| > 0 && NoSpace(w)
    requires |rest| == 0 || IsSpace(rest[0])
    ensures Words(w + rest) == [w] + Words(rest)
  {
    var s := w + rest;
    assert TrimStart(s) == s;
    WordLengthOfWord(w, rest);
    assert s[..|w|] == w;
    assert s[|w|..] == rest;
  }

  lemma WordsSingle(w: string)
    requires |w| > 0 && NoSpace(w)
    ensures Words(w) == [w]
  {
    WordLengthOfWord(w, "");
    assert w + "" == w;
    assert TrimStart(w) == w;
    assert w[..|w|] == w;
    assert Words(w[|w|..]) == [];
  }

  lemma WordsSpaceThen(w: string, rest: string)
    requires |w| > 0 && NoSpace(w)
    ensures Words(w + " " + rest) == [w] + Words(rest)
  {
    var gap := [' '] + rest;
    assert w + " " + rest == w + gap;
    WordsOfWordThen(w, gap);
    WordsSkipsSpace(' ', rest);
  }

  lemma WordsJoinCons(w: string, tail: seq<string>)
    requires |w| > 0 && NoSpace(w) && |tail| > 0
    requires Words(JoinSpaces(tail)) == tail
    ensures Words(JoinSpaces([w] + tail)) == [w] + tail
  {
    assert ([w] + tail)[1..] == tail;
    assert JoinSpaces([w] + tail) == w + " " + JoinSpaces(tail);
    WordsSpaceThen(w, JoinSpaces(tail));
  }

  /** Splitting words joined by single spaces gives back the words: the
      file names the analyzer re-joins split into the same tokens. */
  lemma {:induction false} WordsJoinSpaces(ws: seq<string>)
    requires ProperWords(ws)
    ensures Words(JoinSpaces(ws)) == ws
    decreases |ws|
  {
    if |ws| == 1 {
      WordsSingle(ws[0]);
    } else if |ws| > 1 {
      WordsJoinSpaces(ws[1..]);
      WordsJoinCons(ws[0], ws[1..]);
      assert [ws[0]] + ws[1..] == ws;
    }
  }

  lemma AllSpaceNoWords(s: string)
    requires AllSpace(s)
    ensures Words(s) == []
  {
  }

  lemma TrimStartIdempotent(s: string)
    ensures TrimStart(TrimStart(s)) == TrimStart(s)
  {
  }

  /** Leading whitespace does not change the words. */
  lemma WordsTrimStart(s: string)
    ensures Words(TrimStart(s)) == Words(s)
  {
    TrimStartIdempotent(s);
  }

  /** Trailing text is kept by `TrimStart` once a non-space is reached. */
  lemma {:induction false} TrimStartAppend(t: string, sp: string)
    requires |TrimStart(t)| > 0
    ensures TrimStart(t + sp) == TrimStart(t) + sp
    decreases |t|
  {
    if IsSpace(t[0]) {
      assert (t + sp)[1..] == t[1..] + sp;
      TrimStartAppend(t[1..], sp);
    }
  }

  lemma {:induction false} WordLengthAppend(u: string, sp: string)
    requires AllSpace(sp)
    ensures WordLength(u + sp) == WordLength(u)
    decreases |u|
  {
    if |u| == 0 {
      assert u + sp == sp;
    } else if !IsSpace(u[0]) {
      assert (u + sp)[1..] == u[1..] + sp;
      WordLengthAppend(u[1..], sp);
    }
  }

  /** A string starting with a non-space splits into its first word and
      the words of the rest. */
  lemma WordsCons(s: string, n: nat)
    requires |s| > 0 && !IsSpace(s[0]) && n == WordLength(s)
    ensures Words(s) == [s[..n]] + Words(s[n..])
  {
    assert TrimStart(s) == s;
  }

  lemma AppendSlices(u: string, sp: string, n: nat)
    requires n <= |u|
    ensures (u + sp)[..n] == u[..n] && (u + sp)[n..] == u[n..] + sp
  {
  }

  lemma WordsGlue(u: string, v: string, n: nat, sp: string)
    requires n <= |u| <= |v|
    requires Words(v) == [v[..n]] + Words(v[n..])
    requires Words(u) == [u[..n]] + Words(u[n..])
    requires v[..n] == u[..n] && v[n..] == u[n..] + sp
    requires Words(u[n..] + sp) == Words(u[n..])
    ensures Words(v) == Words(u)
  {
  }

  /** One word of `WordsTrailing`: the first word is unaffected. */
  lemma WordsTrailingStep(u: string, sp: string)
    requires AllSpace(sp) && |u| > 0 && !IsSpace(u[0])
    requires Words(u[WordLength(u)..] + sp) == Words(u[WordLength(u)..])
    ensures Words(u + sp) == Words(u)
  {
    WordLengthAppend(u, sp);
    var n := WordLength(u);
    WordsCons(u + sp, n);
    WordsCons(u, n);
    AppendSlices(u, sp, n);
    WordsGlue(u, u + sp, n, sp);
  }

  /** Trailing whitespace does not change the words. */
  lemma {:induction false} WordsTrailing(t: string, sp: string)
    requires AllSpace(sp)
    ensures Words(t + sp) == Words(t)
    decreases |t|
  {
    var u := TrimStart(t);
    if |u| == 0 {
      assert AllSpace(t) && AllSpace(t + sp);
      AllSpaceNoWords(t);
      AllSpaceNoWords(t + sp);
    } else {
      TrimStartAppend(t, sp);
      WordsTrimStart(t);
      WordsTrimStart(t + sp);
      var n := WordLength(u);
      assert n > 0;
      WordsTrailing(u[n..], sp);
      WordsTrailingStep(u, sp);
    }
  }

  /** `s.strip().split()` is `s.split()`. */
  lemma WordsStrip(s: string)
    ensures Words(Strip(s)) == Words(s)
  {
    var t := TrimStart(s);
    var r := TrimEnd(t);
    assert t == r + t[|r|..];
    WordsTrailing(r, t[|r|..]);
    WordsTrimStart(s);
  }

  lemma {:induction false} TrimStartPrefix(pad: string, s: string)
    requires AllSpace(pad)
    ensures TrimStart(pad + s) == TrimStart(s)
    decreases |pad|
  {
    if |pad| > 0 {
      assert (pad + s)[1..] == pad[1..] + s;
      TrimStartPrefix(pad[1..], s);
    } else {
      assert pad + s == s;
    }
  }

  /** Leading whitespace does not change the words. */
  lemma WordsLeading(pad: string, s: string)
    requires AllSpace(pad)
    ensures Words(pad + s) == Words(s)
  {
    TrimStartPrefix(pad, s);
    WordsTrimStart(pad + s);
    WordsTrimStart(s);
  }

  /** The separator placed after `a` is found unless `a` holds one. */
  lemma FirstSeparator(a: string, b: string, sep: char)
    ensures FirstIndex(a + [sep] + b, sep) == FirstIndex(a, sep)
  {
    var s := a + [sep] + b;
    var k := FirstIndex(a, sep);
    assert s[k] == sep;
    assert forall j :: 0 <= j < k ==> s[j] == a[j];
    FirstIndexUnique(s, sep, k);
  }

  /** Joining two lists of pieces puts one separator between their joins. */
  lemma {:induction false} JoinAppend(p: seq<string>, q: seq<string>, sep: char)
    requires |p| >= 1 && |q| >= 1
    ensures Join(p + q, sep) == Join(p, sep) + [sep] + Join(q, sep)
    decreases |p|
  {
    if |p| > 1 {
      assert (p + q)[1..] == p[1..] + q;
      JoinAppend(p[1..], q, sep);
    } else {
      assert (p + q)[1..] == q;
    }
  }

  /** Splitting distributes over a separator: the pieces of `a`, then the
      pieces of `b`. */
  lemma SplitAround(a: string, b: string, sep: char)
    ensures Split(a + [sep] + b, sep) == Split(a, sep) + Split(b, sep)
  {
    var parts := Split(a, sep) + Split(b, sep);
    JoinAppend(Split(a, sep), Split(b, sep), sep);
    JoinSplit(a, sep);
    JoinSplit(b, sep);
    SplitPiecesFree(a, sep);
    SplitPiecesFree(b, sep);
    assert forall k :: 0 <= k < |parts| ==> sep !in parts[k] by {
      forall k | 0 <= k < |parts|
        ensures sep !in parts[k]
      {
        if k >= |Split(a, sep)| {
          assert parts[k] == Split(b, sep)[k - |Split(a, sep)|];
        }
      }
    }
    SplitJoin(parts, sep);
  }

  /** The text after the last separator is the last piece. */
  lemma LastPiece(a: string, b: string, sep: char)
    requires sep !in b
    ensures var parts := Split(a + [sep] + b, sep);
            parts[|parts| - 1] == b
  {
    SplitAround(a, b, sep);
  }
}

=== FILE: window.dfy ===
/** The constructor's window arithmetic. Dates are day ordinals: the
    adoption date `D` is an integer and `timedelta(days=n)` adds `n`. */
module Window {
  import opened Base

  /** The four boundary dates handed to `git log --since/--until`. The
      predicates below read each window as the closed range between its
      two boundaries; which commits git selects for them is not modelled. */
  datatype Periods = Periods(beforeStart: int, beforeEnd: int, afterStart: int, afterEnd: int)

  predicate InBefore(p: Periods, d: int) {
    p.beforeStart <= d <= p.beforeEnd
  }

  predicate InAfter(p: Periods, d: int) {
    p.afterStart <= d <= p.afterEnd
  }

  /** The day ordinals from `start` to `end`, both included, in order. */
  function DatesBetween(start: int, end: int): (ds: seq<int>)
    ensures forall d :: d in ds <==> start <= d <= end
    ensures forall i :: 0 <= i < |ds| ==> ds[i] == start + i
    ensures |ds| == if end < start then 0 else end - start + 1
    decreases end - start
  {
    if end < start then [] else [start] + DatesBetween(start + 1, end)
  }

  /** `timedelta` accepts at most this many days either way. */
  const MaxDays := 999_999_999

  /** The ordinals of 0001-01-01 and 9999-12-31, the range of `datetime`. */
  const FirstOrdinal := 1
  const LastOrdinal := 3_652_059

  predicate InCalendar(d: int) {
    FirstOrdinal <= d <= LastOrdinal
  }

  /** The constructor's arithmetic, in the order of its statements: building
      `timedelta(days=days)`, then each subtraction and addition, raises
      `OverflowError` when it leaves the range `datetime` can represent. */
  function Shift(d: int, days: int): Result<int> {
    if days < -MaxDays || MaxDays < days || !InCalendar(d + days) then Err(Overflow)
    else Ok(d + days)
  }

  /** The periods for adoption date `adoption` and `days` days of
      analysis: `adoption - days`, `adoption - 1`, `adoption` and
      `adoption + days`. The constructor succeeds exactly when the three
      computed boundaries are calendar dates; `timedelta`'s own limit is
      never the deciding one. The after range starts at the adoption
      ordinal, one past the end of the before range, and no ordinal lies in
      both closed ranges. With at least one day, the closed before range
      spans `days` ordinals and the closed after range `days + 1`. */
  function MakePeriods(adoption: int, days: int): (r: Result<Periods>)
    ensures r.Ok? <==> InCalendar(adoption - days) && InCalendar(adoption - 1) && InCalendar(adoption + days)
    ensures r.Err? ==> r.failure == Overflow
    ensures r.Ok? ==> var p := r.value;
              && p.beforeStart == adoption - days && p.afterEnd == adoption + days
              && p.afterStart == adoption && p.beforeEnd + 1 == p.afterStart
              && (forall d :: !(InBefore(p, d) && InAfter(p, d)))
              && (days >= 1 ==> |DatesBetween(p.beforeStart, p.beforeEnd)| == days)
              && (days >= 0 ==> |DatesBetween(p.afterStart, p.afterEnd)| == days + 1)
              && (days >= 0 ==> forall d :: p.beforeStart <= d <= p.afterEnd <==> InBefore(p, d) || InAfter(p, d))
  {
    match Shift(adoption, -days)
    case Err(f) => Err(f)
    case Ok(beforeStart) =>
      match Shift(adoption, -1)
      case Err(f) => Err(f)
      case Ok(beforeEnd) =>
        match Shift(adoption, days)
        case Err(f) => Err(f)
        case Ok(afterEnd) => Ok(Periods(beforeStart, beforeEnd, adoption, afterEnd))
  }

  /** A window reaching back past 0001-01-01 makes the constructor raise. */
  lemma ReachesBeforeYearOne(adoption: int, days: int)
    requires days >= adoption
    ensures MakePeriods(adoption, days) == Err(Overflow)
  {
  }

  /** A window of at most `n` days on either side fits whenever the
      adoption date is at least `n + 1` days from both ends of the calendar. */
  lemma WindowFits(adoption: int, days: int)
    requires 0 <= days && FirstOrdinal + days < adoption && adoption + days <= LastOrdinal
    ensures MakePeriods(adoption, days).Ok?
  {
  }
}
